=== FILE: README.md ===
# mossx core in Dafny

mossx is a React front end for AI-assisted writing and image generation. It
has three creation kinds: writing (墨韵), drawing (画韵) and inspiration (灵感).
Each kind is backed by OpenAI or Gemini, and the app keeps a bounded history
and a favourites list in `localStorage`.

This project models the logic under the UI as pure functions over immutable
data, and proves properties about it:

- **Store.** The Redux-style `appReducer` over the whole application state, the
  startup hydration from the storage blob, and the snapshot the sync effect
  writes back. "Nothing else changes" is stated with `SameExcept`.
- **Providers.** Client service layer:
  - `getProviderOrder` and the `runWithProviders` fallback chain, with the
    providers it invoked;
  - the response envelope and `handleError`;
  - `generate*` and `toggleFavorite`.
- **OpenAI.** The key check, the normalisation of a chat completion's
  `message.content`, and the PNG data URI returned for an image.
- **Generation.** The panel's `handleCreate`:
  - validation per creation kind;
  - the exact sequence of dispatched actions;
  - the history entry it builds;
  - the error message left on screen.
- **Keywords.** The facet/option tables of both keyword selectors, the
  active-option predicate, and the toggle.
- **Shell, Favorites, HistoryViews.** The action sequences the composite UI
  dispatches, as seen through the reducer. Also the empty guards, card fields,
  style labels and the `M/D HH:MM` date of the history lists.
- **Serverless, Server, Http, Deployments.** The serverless endpoints under
  `api/` and the self-hosted server:
  - route handlers, routing, body reading and static fallback;
  - the content-type table;
  - a comparison of the two deployments of the same endpoints.

## Modelling choices

- **Abstracted I/O.** Every kind of I/O is a parameter of the function that
  uses it:
  - the storage blob is `Option<string>`;
  - `JSON.parse` is an opaque `string -> Parsed` or `string -> Result<…>`;
  - `Date.now()` readings are natural numbers;
  - local calendar fields of a timestamp come from a `localTime` function;
  - provider calls are `Provider -> Result<T, Error>`;
  - generator outcomes are `Result` values;
  - the file system, the build directory's path segments and
    `decodeURIComponent`, which fails on a malformed escape, are a `Site`
    record;
  - whether `new URL` accepts the request's Host header is a flag of the
    `Request`.
- **Undefined values.** A JavaScript `undefined` or absent property is `None`.
  A thrown error is `Error(message)`, where `""` stands for a missing message.
  Both are falsy, so `e.message || fallback` is `MessageOr`.
- **Keyword maps.** These are `map<F, Option<string>>`, and a missing key reads
  as `None` (`Lookup`). `JSON.stringify` drops undefined-valued properties
  (`Compact`). The snapshot round trip therefore restores keyword lookups, not
  the maps themselves.
- **Shown result.** The payload of SET_RESULT is `Shown`. It is either a
  history item (dispatched by the history list) or bare content (dispatched
  by the generation panel and the collections panel). The result view reads
  it as a history item; see "Findings".
- **Drifted storage.** A truthy `history` or `collections` property read
  back from the blob is either a list of entries or a drifted value
  (`StoredList`), such as a number or a plain object. A drifted value carries
  the error that the first list method called on it throws.
- **Fields missing from `types.ts`.** `AppState` and `HistoryItem` in
  `types.ts` lack `imageKeywords`, but the reducer and the generation panel use
  it. It is modelled as a field of both.
- **Collection entries.** A favourite is `CollectionItem(item, collectedAt)`.
  This is the model of `{...item, collectedAt}`.

## Model

| member | source | states |
|---|---|---|
| Types.CreateResponse | api/lib/responses.ts:3-13 | data and error are copied verbatim; an omitted success defaults to true and an omitted status to 200 |
| Types.Respond | services/api.ts:18-23 | `createResponse(data)` is a success envelope with status 200, the data, and no error |
| Types.Fail | services/api.ts:18-23 | `createResponse(null, false, msg, status)` has no data, the message, and the given status |
| Types.OrElse | components/GenerationPanel.tsx:70 | `s \|\| fallback` keeps a non-empty string and otherwise yields the fallback |
| Types.MessageOr | services/api.ts:27 | `e.message \|\| fallback` keeps a non-empty message and otherwise yields the fallback |
| Types.ImageContent | services/api.ts:84 | image content holds exactly an image URL and a description, and no other field |
| Text.Decimal | components/GenerationPanel.tsx:59 | `n.toString()` is all digits, has no leading zero, and is one character iff n < 10 |
| Text.ParseDecimalOfDecimal | components/GenerationPanel.tsx:59 | the decimal rendering reads back as the same number, so the id identifies the clock reading |
| Text.PadStart2 | components/ArticleHistory.tsx:18 | padStart(2,'0') pads short strings on the left with zeros and leaves longer ones alone |
| Text.TwoDigits | components/ArticleHistory.tsx:18 | a number below 100 padded is exactly two digits that read back as the number |
| Keywords.WritingTableShape | components/KeywordSelector.tsx:8-39 | six distinct facets, each with a non-empty list of distinct options; `length` has three |
| Keywords.ImageTableShape | components/ImageKeywordSelector.tsx:8-49 | eight distinct image facets, each with a non-empty list of distinct options |
| Keywords.TogglePayload | components/KeywordSelector.tsx:45-51 | the payload names only the chosen facet: undefined when the option is current, the option otherwise |
| Keywords.Merge | store/AppContext.tsx:54-57 | after `{...m, ...payload}` a facet in the payload reads its payload value and any other facet reads its old value |
| Keywords.Toggle | components/KeywordSelector.tsx:45-51 | no contract of its own; stated by Keywords.ToggleEffect and Keywords.ToggleTwiceRestores |
| Keywords.ToggleEffect | components/ImageKeywordSelector.tsx:55-61 | choosing the active option clears the facet, choosing another option sets it, and all other facets keep their values |
| Keywords.ToggleTwiceRestores | components/KeywordSelector.tsx:45-51 | choosing the same option twice, from unset or from that option, restores every facet |
| Keywords.AtMostOneActive | components/KeywordSelector.tsx:63 | an option is active iff the facet holds it, so no facet has two active options |
| Store.Prepend | store/AppContext.tsx:62-67 | `[item, ...history].slice(0, 10)`: the item leads, the length is capped at ten, and the rest is a prefix of the old history |
| Store.RemoveId | store/AppContext.tsx:68-72 | no contract of its own; its meaning is stated by Store.RemoveIdSpec and Store.RemoveIdShrinks |
| Store.AddHistoryEffect | store/AppContext.tsx:62-67 | ADD_HISTORY puts the item first and keeps at most ten entries; the remainder is a prefix of the old history; no other field changes |
| Store.RemoveIdSpec | store/AppContext.tsx:68-72 | the filter keeps exactly the entries with another id, in their old order, and returns the list unchanged when the id is absent |
| Store.SubsequenceOfTail | store/AppContext.tsx:71 | a subsequence of a list's tail is a subsequence of the list; used to show that deletion keeps order |
| Store.SubsequenceWeaken | store/AppContext.tsx:71 | dropping the head of a subsequence leaves a subsequence |
| Store.DeleteHistoryEffect | store/AppContext.tsx:68-72 | DELETE_HISTORY removes every entry with that id, preserves the order of the others, is a no-op for an absent id, and changes nothing else |
| Store.Reduce | store/AppContext.tsx:37-80 | no contract of its own; each action's effect is stated by the *Effect lemmas, Store.ReduceKeepsBound and Store.SetterEffects |
| Store.SetTypeEffect | store/AppContext.tsx:41-49 | SET_TYPE sets the kind and clears the result, prompt and both keyword maps; theme, style, loading, history and collections are unchanged |
| Store.SetKeywordsEffect | store/AppContext.tsx:54-57 | SET_KEYWORDS and SET_IMAGE_KEYWORDS: facets in the payload take its value, possibly undefined, and every other facet and field is unchanged |
| Store.SetterEffects | store/AppContext.tsx:39-74 | SET_THEME, SET_STYLE, SET_PROMPT, SET_LOADING, SET_RESULT and SET_COLLECTIONS each replace exactly their own field |
| Store.ReduceAllAppend | store/AppContext.tsx:37-80 | dispatching `xs` then `ys` is dispatching `xs + ys`, which is what lets the composite action sequences be reasoned about |
| Store.Truncate | store/AppContext.tsx:94 | `.slice(0, 10)` yields a prefix of at most ten elements and is the identity on short lists |
| Store.HydrateFallback | store/AppContext.tsx:86-107 | with no blob, an empty blob, a parse error, `null`, or a drifted history on which `.slice` throws, the state stays `initialState` and no other field is loaded |
| Store.HydrateFields | store/AppContext.tsx:86-102 | hydration cuts history to ten but not collections, which are loaded as stored (a drifted value as []); falsy fields default to light/writing/ancient/{}/{}; prompt, loading and result stay initial |
| Store.LoadedCollections | store/AppContext.tsx:95 | `parsed.collections \|\| []`: a stored list is loaded as it is, a missing or falsy one as [] |
| Store.StoredHistory | store/AppContext.tsx:94 | `parsed.history \|\| []` on a list is that list, and a missing or falsy history is [] |
| Store.Hydrate | store/AppContext.tsx:86-107 | no contract of its own; stated by Store.HydrateFallback, Store.HydrateFields and Store.SnapshotRoundTrip |
| Store.Compact | store/AppContext.tsx:111-119 | JSON serialisation keeps only keyword entries that are defined |
| Store.CompactLookup | store/AppContext.tsx:111-119 | dropping undefined entries changes no facet's reading and not whether any facet is selected |
| Store.CompactItems | store/AppContext.tsx:112 | serialising history keeps length and order and compacts each item's keyword maps |
| Store.CompactCollections | store/AppContext.tsx:113 | serialising collections keeps length, order, ids and timestamps |
| Store.SnapshotIgnoresTransient | store/AppContext.tsx:110-129 | the snapshot never depends on prompt, loading or result |
| Store.Snapshot | store/AppContext.tsx:110-119 | no contract of its own; stated by Store.SnapshotIgnoresTransient and Store.SnapshotRoundTrip |
| Store.SnapshotRoundTrip | store/AppContext.tsx:86-119 | re-hydrating the written snapshot of a state whose history fits restores history, collections, theme, style and kind, and every keyword lookup |
| Store.RemoveIdShrinks | store/AppContext.tsx:68-72 | the filter never lengthens the history |
| Store.ReduceKeepsBound | store/AppContext.tsx:37-80 | from a history of at most ten, every action keeps at most ten entries, LOAD_STORAGE included when its history fits |
| Store.ReduceAllKeepsBound | store/AppContext.tsx:37-80 | any sequence of such actions keeps the history within ten |
| Store.HydrationLoadBounded | store/AppContext.tsx:94 | the LOAD_STORAGE that hydration dispatches carries at most ten history entries |
| Store.ReachableHistoryBounded | store/AppContext.tsx:86-107 | from startup on, every reachable state holds at most ten history entries, which discharges the bound Store.SnapshotRoundTrip needs |
| Providers.ProviderOrder | services/api.ts:32-37 | the order contains exactly the configured providers, OpenAI before Gemini |
| Providers.ProviderOrderDistinct | services/api.ts:32-37 | no provider appears twice in the order |
| Providers.Attempt | services/api.ts:45-56 | the invoked providers are a prefix of the order; every invoked provider but the last failed; a success is the last invoked provider's result |
| Providers.AttemptDistinct | services/api.ts:45-56 | over distinct providers the chain succeeds iff some provider succeeds; when it fails, every provider was invoked and the last one's error surfaces, so the trailing throw is unreachable |
| Providers.RunWithProviders | services/api.ts:39-57 | no configured provider fails with the no-model message and invokes nothing; otherwise the first success wins with nothing after it invoked, and total failure returns the last provider's error |
| Providers.FallbackScenarios | services/api.ts:45-53 | with both providers configured, an OpenAI success invokes only OpenAI, and an OpenAI failure falls through to Gemini's outcome |
| Providers.HandleError | services/api.ts:25-28 | a thrown error becomes a non-empty failure message with status 500 and no data |
| Providers.GenerateContent | services/api.ts:63-73 | generateText/generateInspiration send a 200 envelope with the chain's data, or a 500 with the error's message or the default |
| Providers.GenerateImage | services/api.ts:78-88 | generateImage's success data is exactly `{imageUrl, description: prompt}`; failures are 500 envelopes |
| Providers.NoProviderConfigured | services/api.ts:40-43 | with no key configured, every generation answers the no-model failure and calls nothing |
| Providers.StoredCollections | services/api.ts:126-134 | a missing, empty, unparseable or `null` blob, or a falsy property, counts as an empty list; a stored list is used as it is; a drifted property fails with the error it throws, and only then |
| Providers.FindIndex | services/api.ts:136 | findIndex returns the first entry with the id, or -1 when no entry has it |
| Providers.ToggleList | services/api.ts:136-147 | no contract of its own; stated by the Providers.Toggle* lemmas below |
| Providers.ToggleFavorite | services/api.ts:124-152 | toggleFavorite answers a success envelope holding the toggled list iff the stored list is usable; a drifted list gives handleError's 500 with the thrown message; the blob is only read |
| Providers.ToggleRemovesFirstMatch | services/api.ts:136-140 | on a present id only the first matching entry is removed, with no truncation and no new timestamp |
| Providers.ToggleAddsAtHead | services/api.ts:141-146 | on an absent id `{...item, collectedAt: now}` leads and the list is cut to ten |
| Providers.ToggleTwiceRestores | services/api.ts:136-146 | toggling an absent item twice from fewer than ten entries returns the original list |
| Providers.ToggleTwiceAtBoundDropsOldest | services/api.ts:141-146 | from exactly ten entries a double toggle is not the identity: the oldest entry is lost |
| Providers.ToggleFlipsMembership | services/api.ts:136-146 | with unique ids a toggle flips whether the id is in the list |
| Providers.ToggleKeepsUniqueIds | services/api.ts:136-147 | a toggle keeps the ids of the favourites unique |
| OpenAI.EnsureConfigured | services/openaiService.ts:10-14 | the check passes iff the key is truthy, and otherwise throws the missing-key message |
| OpenAI.JoinParts | services/openaiService.ts:24 | joining the parts' texts, with non-strings as "", is empty iff every part contributes "" |
| OpenAI.JoinPartsAppend | services/openaiService.ts:24 | the parts' texts are concatenated in order |
| OpenAI.ParseJsonContent | services/openaiService.ts:16-34 | no contract of its own; stated by OpenAI.ParseJsonContentCases |
| OpenAI.ParseJsonContentCases | services/openaiService.ts:16-34 | falsy content fails; a string is parsed; an array's joined text is parsed unless empty; an object with a string `text` is parsed from it; any other shape fails |
| OpenAI.ChatCompletion | services/openaiService.ts:64-97 | inkMuseWrite/sparkInspiration send a request iff configured; a non-ok reply fails with the provider's message or the default; an ok reply is the parsed content |
| OpenAI.InkMuseWrite | services/openaiService.ts:64-97 | no contract of its own; it is OpenAI.ChatCompletion with the writing failure message, which states it |
| OpenAI.SparkInspiration | services/openaiService.ts:131-164 | no contract of its own; it is OpenAI.ChatCompletion with the inspiration failure message, which states it |
| OpenAI.AuraPaint | services/openaiService.ts:99-129 | with a key, an ok reply and non-empty b64_json the result is "data:image/png;base64," followed by it; otherwise the matching error |
| Generation.ValidationError | components/GenerationPanel.tsx:23-38 | validation fails iff the prompt is empty and no facet of the kind's keyword map is selected; inspiration never fails |
| Generation.HandleCreate | components/GenerationPanel.tsx:19-77 | no contract of its own; stated by Generation.ValidationBlocks, Generation.LoadingBracketsCall and Generation.CreateThroughReducer |
| Generation.NewItem | components/GenerationPanel.tsx:58-67 | no contract of its own; stated by Generation.NewItemFields |
| Generation.ValidationBlocks | components/GenerationPanel.tsx:24-38 | a failed validation shows its kind's message, dispatches nothing and calls no service |
| Generation.LoadingBracketsCall | components/GenerationPanel.tsx:40-76 | after validation, loading is set and the result cleared first and loading is cleared last, on every path; exactly one ADD_HISTORY happens iff data was delivered |
| Generation.CountAddsAppend | components/GenerationPanel.tsx:55-68 | history appends in a concatenated dispatch sequence add up |
| Generation.NewItemFields | components/GenerationPanel.tsx:58-67 | the new entry has the active kind, prompt and data; style and keywords are set only for writing, image keywords only for drawing; the id reads back as the clock |
| Generation.CreateThroughReducer | components/GenerationPanel.tsx:40-76 | through the reducer: a delivery shows the data and prepends the new entry; a failure envelope shows its error or the default; a throw shows the network message; both failures leave history alone |
| Generation.BlockedLeavesState | components/GenerationPanel.tsx:24-35 | a validation failure leaves the store unchanged |
| Shell.ToggleTheme | App.tsx:21 | the toggle always changes the theme |
| Shell.ToggleThemeInvolution | App.tsx:21 | light maps to dark and dark to light, and toggling twice is the identity |
| Shell.ThemeButton | App.tsx:21 | the header button changes the theme and nothing else |
| Shell.ChoosePersona | App.tsx:57-60 | no contract of its own; stated by Shell.ChoosePersonaEffect |
| Shell.ChoosePersonaEffect | App.tsx:57-60 | choosing a persona sets the kind and clears the working inputs and the result |
| Shell.SelectHistory | App.tsx:78-84 | no contract of its own; stated by Shell.SelectHistoryEffect |
| Shell.SelectHistoryEffect | App.tsx:78-84 | selecting an item ends with its kind, prompt and itself shown, keywords cleared, its style only if present, and history and collections unchanged, because SET_TYPE runs first |
| Shell.DeleteFromHistoryEffect | App.tsx:85 | deleting from the list removes exactly the entries with the item's id and changes nothing else |
| Favorites.IsCollected | components/ResultDisplay.tsx:19 | no contract of its own; used by Favorites.ToggleFromViewEffect and Favorites.DeleteCardRemoves |
| Favorites.ItemContent | components/ResultDisplay.tsx:17 | the `content` read from the prop exists iff the shown result is a history item, and is that item's content |
| Favorites.DrawingVisible | components/ResultDisplay.tsx:95 | no contract of its own; the condition of Favorites.ViewOf's blank case |
| Favorites.ViewOf | components/ResultDisplay.tsx:41-136 | the view is blank iff the kind is drawing without a non-empty image URL, and otherwise renders the kind's branch with the content |
| Favorites.ResultDisplay | components/ResultDisplay.tsx:14-136 | as written: the render throws iff the shown result is bare content; a history item renders its content with its `isCollected` flag |
| Favorites.ShownBody | App.tsx:65-70 | the content the view is meant to show: a history item's content, or the bare content itself |
| Favorites.IntendedResultDisplay | components/ResultDisplay.tsx:14-136 | as intended: never throws; blank only for a drawing without an image; otherwise renders the shown content |
| Favorites.IntendedViewAgrees | components/ResultDisplay.tsx:17 | the view as written and as intended agree on every history item and differ on every bare content |
| Favorites.FreshResultThrows | components/GenerationPanel.tsx:55-56 | after every successful generation the view as written throws, while the intended view shows the generated data |
| Favorites.CopyText | components/ResultDisplay.tsx:60 | the copied text is the body, or "" without one |
| Favorites.ApplyToggleResponse | components/ResultDisplay.tsx:27-32 | SET_COLLECTIONS is dispatched iff the response succeeded with data |
| Favorites.ApplyToggleResponseEffect | components/CollectionsPanel.tsx:15-20 | a failed or empty response leaves the state alone; a delivered list replaces only the collections |
| Favorites.CompactCollectionsIds | store/AppContext.tsx:113 | reading collections back from the blob keeps which ids are present and whether they are unique |
| Favorites.ToggleFromViewEffect | components/ResultDisplay.tsx:19-32 | with the blob in sync with the state and unique ids, the star flips `isCollected`, keeps ids unique and changes nothing but the collections |
| Favorites.DriftedBlobBlocksToggle | services/api.ts:136-152 | with a drifted `collections` in the blob, every toggle fails and the view dispatches nothing |
| Favorites.Snippet | components/CollectionsPanel.tsx:79 | the snippet is the body if non-empty, else the description |
| Favorites.CardFor | components/CollectionsPanel.tsx:42-80 | a card is an image card iff the entry is a drawing |
| Favorites.Panel | components/CollectionsPanel.tsx:22-33 | the panel renders nothing iff there are no collections, else one card per entry in order |
| Favorites.PanelCards | components/CollectionsPanel.tsx:42-80 | image cards show the entry's image; the writing badge marks exactly writing; the heading is the title for writing and the pairings for inspiration |
| Favorites.Review | components/CollectionsPanel.tsx:82-85 | no contract of its own; stated by Favorites.ReviewEffect |
| Favorites.OpenDrawing | components/CollectionsPanel.tsx:47 | no contract of its own; stated by Favorites.OpenDrawingEffect |
| Favorites.ReviewEffect | components/CollectionsPanel.tsx:82-85 | "review" ends on the entry's kind with its bare content as the result, because SET_TYPE precedes SET_RESULT; the result view as written then throws |
| Favorites.ReviewOrderMatters | components/CollectionsPanel.tsx:82-85 | the reversed order would show nothing, as the kind switch clears the result |
| Favorites.OpenDrawingEffect | components/CollectionsPanel.tsx:47 | the drawing card's open button sets its bare content as the result and leaves the active kind as it was; the result view as written then throws |
| Favorites.DeleteCardRemoves | components/CollectionsPanel.tsx:53-55 | with the blob in sync and unique ids, a trash button removes that entry: one fewer entry, and its id is gone |
| HistoryViews.KnownStyle | components/HistoryPanel.tsx:13-19 | a string is found in the label table iff it is some style's key |
| HistoryViews.StyleTable | components/ArticleHistory.tsx:21-29 | each style is found under its own key, and distinct styles have distinct, non-empty labels |
| HistoryViews.PanelStyleLabel | components/HistoryPanel.tsx:21-24 | a missing or empty style is '未知', a known key its label, and any other string itself; the label is never empty |
| HistoryViews.ArticleStyleLabel | components/ArticleHistory.tsx:21-31 | a known key gives its label and any other string, '' included, is shown as it is |
| HistoryViews.StyleLabelsAgree | components/ArticleHistory.tsx:21-31 | both lists map the five keys to their labels and agree on every non-empty string; a missing style is '未知' in the panel and '' in the article list |
| HistoryViews.PanelHeading | components/HistoryPanel.tsx:59 | a writing entry is headed by its content's title; any other by its prompt, or '灵感火花' when that is empty |
| HistoryViews.HistoryPanel | components/HistoryPanel.tsx:27 | the panel renders nothing iff the history is empty |
| HistoryViews.PanelCardLabels | components/HistoryPanel.tsx:56-59 | each card has its item's kind; its label is its style's label, or '未知' without a style; its heading is the title for writing, else the prompt, else '灵感火花' |
| HistoryViews.SplitAt | components/ArticleHistory.tsx:18 | splitting at the first separator recovers the two sides; used to read a date back |
| HistoryViews.SplitAtFirst | components/ArticleHistory.tsx:18 | the split of `a + sep + b` with no separator in `a` is `(a, b)` |
| HistoryViews.PadIsTwoDigits | components/ArticleHistory.tsx:18 | padding a number below 100 gives exactly its two-digit form |
| HistoryViews.FormatDate | components/ArticleHistory.tsx:16-19 | no contract of its own; stated by HistoryViews.FormatDateReadBack |
| HistoryViews.FormatDateReadBack | components/ArticleHistory.tsx:16-19 | `M/D HH:MM` reads back to the same calendar fields (month from one, unpadded month and day, two-digit clock) |
| HistoryViews.ArticleHistory | components/ArticleHistory.tsx:14 | the article list renders nothing iff the history is empty |
| HistoryViews.ArticleRowFields | components/ArticleHistory.tsx:49-70 | each row's date reads back to the item's local time, its heading is the prompt, and a missing style shows '' |
| Serverless.MethodNotAllowed | api/lib/responses.ts:15-16 | the envelope is `{success: false, data: null, error: 'Method Not Allowed', status: 405}` |
| Serverless.GenerateText | api/generate-text.ts:5-38 | non-POST gets 405; a falsy style gets 400 with no call; a missing topic is passed as ''; success gives 200 with the data; an error gives 500 with its message or the default; the HTTP status always equals the envelope's |
| Serverless.GenerateImage | api/generate-image.ts:5-37 | non-POST gets 405; an empty prompt gets 400 with no call; success is `{imageUrl, description: prompt}`; errors give 500; the keywords are passed through as given |
| Serverless.GenerateInspiration | api/generate-inspiration.ts:4-25 | non-POST gets 405; every POST calls the generator; the status matches the envelope |
| Serverless.NoCallWithoutInput | api/generate-text.ts:5-21 | no endpoint calls a generator for another method; an empty body is rejected with 400 by text and image |
| Server.HandleGenerateText | services/server/routes.ts:11-24 | the body is passed on unvalidated; success is the data in a 200 envelope; failure is 500 with the message or this route's default |
| Server.HandleGenerateImage | services/server/routes.ts:26-35 | success data holds the URL and the prompt as given; failure is 500 with the message or this route's default |
| Server.HandleGenerateInspiration | services/server/routes.ts:37-45 | takes no input; success is 200 with the data; failure is 500 with the message or this route's default |
| Server.Extname | services/server/index.ts:15 | an extension is empty or a dot followed by no dot and no slash |
| Server.ExtnameOfFile | services/server/index.ts:15 | a file `stem + ext` in any directory has extension `ext`: the last dot of the last segment wins |
| Server.ContentTypeTable | services/server/index.ts:14-45 | exactly the listed extensions get a specific type, and .jpg and .jpeg both map to image/jpeg |
| Server.GetContentType | services/server/index.ts:14-45 | no contract of its own; stated by Server.ContentTypeTable and Server.ExtnameOfFile |
| Server.ReadRequestBody | services/server/index.ts:52-68 | an empty body reads as `{}` and anything else goes through JSON.parse |
| Server.SplitSlash | services/server/index.ts:72 | a path splits into at least one piece, and no piece holds a slash |
| Server.SplitJoin | services/server/index.ts:72 | joining the pieces back with slashes gives the path |
| Server.JoinSplit | services/server/index.ts:72 | slash-free pieces joined and split again are the same pieces |
| Server.Resolve | services/server/index.ts:72 | normalising keeps only real segments (no empty piece, `.` or `..`) and never grows the path |
| Server.ResolveNormalised | services/server/index.ts:72 | already-normalised segments are all kept, in order |
| Server.ResolveKeepsBase | services/server/index.ts:72 | without a `..` piece the segments kept so far stay in front |
| Server.ClimbToRoot | services/server/index.ts:72 | at least as many `..` pieces as kept segments climb back to the root, whatever was kept |
| Server.JoinPath | services/server/index.ts:72 | no contract of its own; stated by Server.JoinFileName, Server.JoinEscapesBuild and Server.ConfinedAgrees |
| Server.JoinFileName | services/server/index.ts:72 | a plain file name is joined directly under the build directory |
| Server.IndexPathIsJoin | services/server/index.ts:81 | the index page's path is `path.join(distPath, "index.html")` |
| Server.JoinEscapesBuild | services/server/index.ts:72 | as written, a decoded path starting with one `..` per segment of the build directory names the rest of the path taken from the file system's root (see "Findings") |
| Server.ConfinedPath | services/server/index.ts:72 | no contract of its own; stated by Server.ConfinedStaysInBuild, Server.ConfinedClimbStops and Server.ConfinedAgrees |
| Server.ConfinedStaysInBuild | services/server/index.ts:72 | the corrected join is the build directory itself or a path below it, for every request path |
| Server.ConfinedClimbStops | services/server/index.ts:72 | under the corrected join, leading `..` pieces stop at the build directory |
| Server.ConfinedAgrees | services/server/index.ts:72 | for a path with no `..` piece the corrected join equals the join as written |
| Server.ServeStaticFile | services/server/index.ts:70-91 | a decoded path that names a file after the join is streamed with 200 and its own content type; otherwise the index page is streamed as text/html; 404 "Not Found" exactly when neither the file nor the index exists; no response exactly when `decodeURIComponent` throws |
| Server.HandleRequest | services/server/index.ts:93-143 | no URL gives 400; a Host header that `new URL` rejects gets no response; an API answer carries its envelope's status; with a readable body each of the three routes answers its handler's envelope and any other /api/ path the 404 'API route not found' envelope; a page path is served statically, or gets 404 'Assets not built yet.' without a build; a generator runs only for a request with a parsed URL that is not OPTIONS |
| Server.UnansweredOnlyOnThrow | services/server/index.ts:93-143 | a request goes unanswered exactly when `new URL` throws on the Host header, or `decodeURIComponent` throws on a page path of a present build |
| Server.GeneratorOnlyOnRoutes | services/server/index.ts:105-128 | a generator runs iff the URL parses, the path is one of the three routes and the body reads, and the path alone picks which one |
| Server.MethodIgnored | services/server/index.ts:99-129 | apart from OPTIONS, the method never changes the answer |
| Server.PreflightFirst | services/server/index.ts:99-103 | OPTIONS gets 204 on every path, before any routing |
| Server.BadBodyBeforeRoute | services/server/index.ts:107-133 | an unreadable body fails every /api/ path with 500, unknown paths included |
| Server.SinglePageFallback | services/server/index.ts:70-91 | with the build and its index present, a page path that decodes is always streamed with 200, "/" means /index.html, and a missing file is served as the index page with text/html |
| Deployments.TextDeploymentsAgree | services/server/routes.ts:11-24 | the serverless and server text endpoints send the same envelope on success and on a failure with a message; only the message-less fallback differs |
| Deployments.ImageDeploymentsAgree | services/server/routes.ts:26-35 | the two image endpoints make the same call and agree the same way |
| Deployments.InspirationDeploymentsAgree | services/server/routes.ts:37-45 | the two inspiration endpoints agree on every POST except the message-less fallback |
| Deployments.ServerSkipsValidation | services/server/routes.ts:11-35 | what the serverless function rejects with 400 for a missing style or prompt, the server route still hands to the generator |

## Left out

- Rendering is not modelled: JSX, CSS, animation, icons and the `dark` class toggle are presentation.
- Browser side effects are not modelled: clipboard, `setTimeout` for the copy tick, and `window.scrollTo`.
- `ArticleResult.tsx`, `StyleSettings.tsx`, `CharacterSelector.tsx` and `PromptInput.tsx` are presentation or static tables. The persona choice itself is modelled through App.tsx's `onSelect`.
- `services/geminiService.ts`, `api/lib/gemini` and `services/server/geminiController` are not part of this model. Gemini's availability and every generator are opaque outcomes.
- `fetch`, prompt templates, model names and temperatures are not modelled. The OpenAI exchange is reduced to a `Reply`: the `ok` flag, the error message, the message content and `b64_json`. A failure of `response.json()` itself is not modelled.
- `auraPaint` reads `keywords.timeOfDay`, which no selector facet sets. The prompt text it builds is not modelled.
- `getUserHistory` (services/api.ts:108-119) is left out: no component calls it.
- Request bodies that are JSON but not objects are left out. For `null`, destructuring throws inside a route handler, which turns it into a 500 envelope. Bodies are modelled as records of optional string fields.
- In the serverless handlers, a missing `req.body` throws before the `try`. That uncaught path is left out.
- Which Host headers the WHATWG URL parser rejects is not modelled: `urlParses` is a flag of the request. The URL's path is a separate field, so the parser's own normalisation of dot segments and escapes happens before the model sees it.
- `path.join` is modelled for the server's absolute build directory, given as its normalised segments, as `path.resolve` leaves it. Relative build paths and Windows separators are not modelled.
- HistoryViews.KnownStyle: the lookup `styleLabels[style]` also finds inherited object properties such as `toString`. The model looks up only the five own keys.
- Server.Extname: does not model Node's treatment of trailing slashes. `path.join` output reaching `getContentType` names an existing file, which has none.
- Favorites.ShownCollected: on bare content the star is computed but never shown, because the render throws first (see "Findings"). Its toggle is not modelled.
- Store.LoadedCollections: a drifted `collections` value is loaded as `[]`. The source stores the value itself, and the collections panel's render then fails on it. The state cannot hold such a value.
- Providers.StoredCollections: ill-formed list entries are not modelled; a list holds well-formed entries or is drifted. Entries such as `[5]` or `[{}]` make `findIndex` compare against `undefined` without throwing. A `null` entry throws only when `findIndex` reaches it: `[{id: "x"}, null]` toggled with id `"x"` succeeds and returns `[null]`, while other ids throw.
- Store.HydrateFields: off-enum strings for `theme`, `activeType` or `activeStyle` (such as `"blue"`) are loaded verbatim by `parsed.theme || 'light'`, but the state's enumerations cannot hold them. A truthy string `history` is sliced like a list rather than throwing. Neither is modelled.
- OpenAI.JoinParts: a `null` part of an array content makes `part.text` throw. Every modelled part contributes its text or "".
- Local-time conversion in `new Date(timestamp)` and `toLocaleDateString` is not modelled. Calendar fields are a parameter, and the panel's locale date string is omitted.
- Interleavings are not modelled: overlapping generations, double submits and multi-tab storage races. Each function is one sequential step.
- The sync effect's write is modelled as the `Snapshot` value. The state machine does not carry the blob. Lemmas that need the blob state that it holds the last snapshot (`InSync`).

## Findings

| source | as written | input that shows it | evidently intended | confidence | as-written member | corrected member |
|---|---|---|---|---|---|---|
| services/server/index.ts:72-77 | the decoded path is joined to the build directory and the result is streamed if it names a file; `path.join` resolves `..` pieces against the build directory, and the URL parser does not treat `..%2f..` as dot segments, so they survive to `decodeURIComponent` | `GET /..%2f..%2fetc%2fpasswd` with the build at `/app/dist`: the path decodes to `/../../etc/passwd`, the join names `/etc/passwd`, and that file is streamed with 200 | only files inside the build directory are served | medium; not executed | Server.JoinPath, with Server.JoinEscapesBuild | Server.ConfinedPath, with Server.ConfinedStaysInBuild, Server.ConfinedClimbStops and Server.ConfinedAgrees |
| App.tsx:65-70, components/ResultDisplay.tsx:17 | the shown result is passed as the `item` prop and its `content` property is read, but the generation panel and the collections panel dispatch bare content, which has no `content` property; `content.title`, `content.imageUrl` or `content.traits` then throws during render | any delivered generation (components/GenerationPanel.tsx:56), "review" (components/CollectionsPanel.tsx:84) or "open" (components/CollectionsPanel.tsx:47) | the view renders the generated or collected content | high; not executed | Favorites.ResultDisplay, with Favorites.FreshResultThrows | Favorites.IntendedResultDisplay, with Favorites.IntendedViewAgrees and Favorites.FreshResultThrows |

`Server.ServeStaticFile` serves through the join as written, so the server
model keeps the traversal; `Server.ConfinedPath` is the corrected join, and
`Server.ConfinedAgrees` shows that it changes nothing for a path without a
`..` piece.

=== FILE: deployments.dfy ===
/**
 The same three generation endpoints exist twice: as serverless functions
 and as routes of the self-hosted server. This module relates the two.
 */
module Deployments {
  import opened Types
  import opened Http
  import Serverless
  import Server

  /**
   Given a valid POST, both deployments call the same generator and answer a
   success with the same envelope; a failure carrying a message reports that
   message in both, and only the fallback text for a message-less failure
   differs. The server forwards the topic untouched where the serverless
   function substitutes "" for a missing one.
   */
  lemma TextDeploymentsAgree(body: Body, outcome: Result<Content, Error>)
    requires Truthy(body.style)
    ensures var a := Serverless.GenerateText("POST", body, outcome);
      var b := Server.HandleGenerateText(body, outcome);
      && a.call.Some? && a.call.value.WriteCall? && b.call.WriteCall?
      && a.call.value.style == b.call.style && a.call.value.keywords == b.call.keywords
      && (Truthy(body.topic) ==> a.call.value == b.call)
      && (outcome.Success? ==> a.payload == b.payload && a.code == 200)
      && (outcome.Failure? && outcome.error.message != "" ==> a.payload == b.payload && a.code == 500)
      && (outcome == Failure(Error("")) ==> a.payload.error != b.payload.error)
  {
  }

  /** The image endpoints agree in the same way, given a non-empty prompt. */
  lemma ImageDeploymentsAgree(body: Body, outcome: Result<string, Error>)
    requires Truthy(body.prompt)
    ensures var a := Serverless.GenerateImage("POST", body, outcome);
      var b := Server.HandleGenerateImage(body, outcome);
      && a.call == Some(b.call)
      && (outcome.Success? ==> a.payload == b.payload && a.code == 200)
      && (outcome.Failure? && outcome.error.message != "" ==> a.payload == b.payload && a.code == 500)
      && (outcome == Failure(Error("")) ==> a.payload.error != b.payload.error)
  {
  }

  /** The inspiration endpoints agree on every POST. */
  lemma InspirationDeploymentsAgree(outcome: Result<Content, Error>)
    ensures var a := Serverless.GenerateInspiration("POST", outcome);
      var b := Server.HandleGenerateInspiration(outcome);
      && a.call == Some(b.call)
      && (outcome.Success? ==> a.payload == b.payload && a.code == 200)
      && (outcome.Failure? && outcome.error.message != "" ==> a.payload == b.payload && a.code == 500)
      && (outcome == Failure(Error("")) ==> a.payload.error != b.payload.error)
  {
  }

  /**
   What the serverless function rejects with 400, the server's route still
   hands to the generator: a missing style or prompt is not checked there.
   */
  lemma ServerSkipsValidation(body: Body, text: Result<Content, Error>, image: Result<string, Error>)
    requires !Truthy(body.style) && !Truthy(body.prompt)
    ensures Serverless.GenerateText("POST", body, text).code == 400
    ensures Serverless.GenerateImage("POST", body, image).code == 400
    ensures Server.HandleGenerateText(body, text).call == WriteCall(body.topic, body.style, body.keywords)
    ensures Server.HandleGenerateImage(body, image).call == PaintCall(body.prompt, body.keywords)
  {
  }
}

=== FILE: favorites.dfy ===
/**
 The two views that toggle favourites (`ResultDisplay.tsx` and
 `CollectionsPanel.tsx`): whether the shown result is collected, the dispatch
 after `api.toggleFavorite`, the cards of the collections panel and the
 actions of their buttons.
 */
module Favorites {
  import opened Types
  import opened Store
  import Providers
  import Generation

  // ---------------------------------------------------------------- result view

  /** `state.collections.some(c => c.id === item.id)` */
  predicate IsCollected(collections: seq<CollectionItem>, item: HistoryItem) {
    Providers.HasId(collections, item.id)
  }

  /**
   The `content` that `ResultDisplay` destructures from its `item` prop. The
   app passes the shown result as that prop: a history item yields its
   content, while bare content has no `content` property and yields undefined.
   */
  function ItemContent(shown: Shown): (r: Option<Content>)
    ensures r.Some? <==> shown.ShownItem?
    ensures shown.ShownItem? ==> r.value == shown.item.content
  {
    match shown
    case ShownItem(item) => Some(item.content)
    case ShownContent(_) => None
  }

  /** The star's `isCollected`: bare content has no `id`, which no collection entry matches. */
  predicate ShownCollected(collections: seq<CollectionItem>, shown: Shown) {
    match shown
    case ShownItem(item) => IsCollected(collections, item)
    case ShownContent(_) => false
  }

  /** The copy button's text: `content.body || ''`. */
  function CopyText(c: Content): (r: string)
    ensures c.body.Some? ==> r == c.body.value
    ensures c.body.None? ==> r == ""
  {
    c.body.GetOr("")
  }

  /** What the result view shows for the active kind. */
  datatype ResultView =
    | Thrown
      // reading a property of an undefined `content` throws during render
    | Blank
      // the drawing branch is skipped without an image URL
    | Rendered(kind: CreationType, content: Content, collected: bool)

  /** `type === 'drawing' && content.imageUrl`: the drawing branch needs a non-empty image URL. */
  predicate DrawingVisible(c: Content) {
    c.imageUrl.Some? && c.imageUrl.value != ""
  }

  /** The branch for the active kind, given the content it reads. */
  function ViewOf(kind: CreationType, c: Content, collected: bool): (r: ResultView)
    ensures r.Blank? <==> kind == Drawing && !DrawingVisible(c)
    ensures r.Rendered? ==> r == Rendered(kind, c, collected)
    ensures !r.Thrown?
  {
    if kind == Drawing && !DrawingVisible(c) then Blank else Rendered(kind, c, collected)
  }

  /**
   `ResultDisplay` as written. Every branch reads a property of `content`
   first (`content.title`, `content.imageUrl`, `content.traits`), so the
   render throws whenever the shown result is bare content.
   */
  function ResultDisplay(kind: CreationType, collections: seq<CollectionItem>, shown: Shown): (r: ResultView)
    ensures r.Thrown? <==> shown.ShownContent?
    ensures shown.ShownItem? ==> r == ViewOf(kind, shown.item.content, IsCollected(collections, shown.item))
  {
    match ItemContent(shown)
    case None => Thrown
    case Some(c) => ViewOf(kind, c, ShownCollected(collections, shown))
  }

  /** The content the result view is meant to show: the item's content, or the bare content itself. */
  function ShownBody(shown: Shown): (r: Content)
    ensures ItemContent(shown).Some? ==> r == ItemContent(shown).value
    ensures shown.ShownContent? ==> r == shown.content
  {
    match shown
    case ShownItem(item) => item.content
    case ShownContent(c) => c
  }

  /** The result view as evidently intended: it renders whichever form the shown result takes. */
  function IntendedResultDisplay(kind: CreationType, collections: seq<CollectionItem>, shown: Shown): (r: ResultView)
    ensures !r.Thrown?
    ensures r.Blank? <==> kind == Drawing && !DrawingVisible(ShownBody(shown))
    ensures r.Rendered? ==> r.content == ShownBody(shown) && r.kind == kind
  {
    ViewOf(kind, ShownBody(shown), ShownCollected(collections, shown))
  }

  /** The two views agree on every history item and differ exactly on bare content. */
  lemma IntendedViewAgrees(kind: CreationType, collections: seq<CollectionItem>, shown: Shown)
    ensures shown.ShownItem? ==> ResultDisplay(kind, collections, shown) == IntendedResultDisplay(kind, collections, shown)
    ensures shown.ShownContent? ==> ResultDisplay(kind, collections, shown) != IntendedResultDisplay(kind, collections, shown)
  {
  }

  /**
   After every successful generation the result view, as written, throws;
   the intended view shows the generated content.
   */
  lemma FreshResultThrows(s: AppState, outcome: Generation.CallOutcome, idClock: nat, stampClock: nat)
    requires Generation.ValidationError(s).None?
    requires outcome.Returned? && Generation.Delivered(outcome.envelope)
    ensures var t := ReduceAll(s, Generation.HandleCreate(s, outcome, idClock, stampClock).dispatched);
      && t.result.Some?
      && ResultDisplay(t.activeType, t.collections, t.result.value) == Thrown
      && ShownBody(t.result.value) == outcome.envelope.data.value
      && IntendedResultDisplay(t.activeType, t.collections, t.result.value) != Thrown
  {
    Generation.CreateThroughReducer(s, outcome, idClock, stampClock);
  }

  /** After `api.toggleFavorite`: `if (response.success && response.data) dispatch(SET_COLLECTIONS)`. */
  function ApplyToggleResponse(e: Envelope<seq<CollectionItem>>): (r: seq<Action>)
    ensures r != [] <==> e.success && e.data.Some?
    ensures forall i :: 0 <= i < |r| ==> r[i].SetCollections?
  {
    if e.success && e.data.Some? then [SetCollections(e.data.value)] else []
  }

  /** A failed or empty response leaves the state alone; a delivered list replaces the collections and nothing else. */
  lemma ApplyToggleResponseEffect(s: AppState, e: Envelope<seq<CollectionItem>>)
    ensures var t := ReduceAll(s, ApplyToggleResponse(e));
      && (!(e.success && e.data.Some?) ==> t == s)
      && (e.success && e.data.Some? ==> t.collections == e.data.value && SameExcept(s, t, {CollectionsField}))
  {
    if e.success && e.data.Some? {
      assert ApplyToggleResponse(e)[1..] == [];
    }
  }

  /** The star button of the result view, and the trash buttons of the collections panel. */
  function ToggleFromView(saved: Option<string>, parse: string -> Parsed, item: HistoryItem, now: int): seq<Action> {
    ApplyToggleResponse(Providers.ToggleFavorite(saved, parse, item, now))
  }

  /** The blob holds what the sync effect last wrote for `s`. */
  predicate InSync(s: AppState, saved: Option<string>, parse: string -> Parsed) {
    HasBlob(saved) && parse(saved.value) == Value(Snapshot(s))
  }

  /** Reading collections back from JSON keeps every id, and so membership and uniqueness. */
  lemma CompactCollectionsIds(cs: seq<CollectionItem>, id: string)
    ensures Providers.HasId(CompactCollections(cs), id) <==> Providers.HasId(cs, id)
    ensures Providers.UniqueIds(CompactCollections(cs)) <==> Providers.UniqueIds(cs)
  {
    var r := CompactCollections(cs);
    assert forall j :: 0 <= j < |cs| ==> r[j].item.id == cs[j].item.id;
  }

  /**
   When the blob is in sync with the state and ids are unique, the service
   answers with a success envelope, so the view dispatches one
   SET_COLLECTIONS: it flips whether the item is collected, keeps ids unique
   and changes nothing but the collections.
   */
  lemma ToggleFromViewEffect(s: AppState, saved: Option<string>, parse: string -> Parsed, item: HistoryItem, now: int)
    requires InSync(s, saved, parse) && Providers.UniqueIds(s.collections)
    ensures var t := ReduceAll(s, ToggleFromView(saved, parse, item, now));
      && t.collections == Providers.ToggleList(CompactCollections(s.collections), item, now)
      && (IsCollected(t.collections, item) <==> !IsCollected(s.collections, item))
      && Providers.UniqueIds(t.collections)
      && SameExcept(s, t, {CollectionsField})
  {
    var cs := CompactCollections(s.collections);
    assert Providers.StoredCollections(saved, parse) == Success(cs);
    var e := Providers.ToggleFavorite(saved, parse, item, now);
    assert e.success && e.data == Some(Providers.ToggleList(cs, item, now));
    ApplyToggleResponseEffect(s, e);
    CompactCollectionsIds(s.collections, item.id);
    Providers.ToggleFlipsMembership(cs, item, now);
    Providers.ToggleKeepsUniqueIds(cs, item, now);
  }

  /** A drifted `collections` property makes every toggle fail, so the view dispatches nothing. */
  lemma DriftedBlobBlocksToggle(s: AppState, saved: Option<string>, parse: string -> Parsed, item: HistoryItem, now: int)
    requires HasBlob(saved) && parse(saved.value).Value?
    requires parse(saved.value).fields.collections.Some? && parse(saved.value).fields.collections.value.Drifted?
    ensures !Providers.ToggleFavorite(saved, parse, item, now).success
    ensures ReduceAll(s, ToggleFromView(saved, parse, item, now)) == s
  {
    ApplyToggleResponseEffect(s, Providers.ToggleFavorite(saved, parse, item, now));
  }

  // ---------------------------------------------------------------- collections panel

  const WritingBadge := "墨韵"
  const InspirationBadge := "灵感"

  /** A card of the collections panel. */
  datatype Card =
    | DrawingCard(imageUrl: Option<string>)
    | TextCard(badge: string, heading: Option<string>, snippet: Option<string>)

  /** `item.content.body || item.content.description` */
  function Snippet(c: Content): (r: Option<string>)
    ensures c.body.Some? && c.body.value != "" ==> r == c.body
    ensures c.body.None? || c.body.value == "" ==> r == c.description
  {
    if c.body.Some? && c.body.value != "" then c.body else c.description
  }

  /** A drawing shows its image; other kinds a badge, a heading and a snippet. */
  function CardFor(c: CollectionItem): (r: Card)
    ensures r.DrawingCard? <==> c.item.kind == Drawing
  {
    var k := c.item.kind;
    var content := c.item.content;
    if k == Drawing then DrawingCard(content.imageUrl)
    else TextCard(
      if k == Writing then WritingBadge else InspirationBadge,
      if k == Writing then content.title else content.pairings,
      Snippet(content))
  }

  /** The panel renders nothing when there are no collections, and otherwise one card per entry in order. */
  function Panel(cs: seq<CollectionItem>): (r: Option<seq<Card>>)
    ensures r.None? <==> |cs| == 0
    ensures r.Some? ==> |r.value| == |cs| && forall i :: 0 <= i < |cs| ==> r.value[i] == CardFor(cs[i])
  {
    if |cs| == 0 then None else Some(seq(|cs|, i requires 0 <= i < |cs| => CardFor(cs[i])))
  }

  /** The cards agree with their entries: drawings only from drawings, writing badge only for writing. */
  lemma PanelCards(cs: seq<CollectionItem>, i: int)
    requires 0 <= i < |cs|
    ensures var card := Panel(cs).value[i];
      && (card.DrawingCard? <==> cs[i].item.kind == Drawing)
      && (card.DrawingCard? ==> card.imageUrl == cs[i].item.content.imageUrl)
      && (card.TextCard? ==> (card.badge == WritingBadge <==> cs[i].item.kind == Writing))
      && (card.TextCard? && cs[i].item.kind == Writing ==> card.heading == cs[i].item.content.title)
      && (card.TextCard? && cs[i].item.kind == Inspiration ==> card.heading == cs[i].item.content.pairings)
  {
  }

  /** "Review" on a text card: switch to the entry's kind, then show its content. */
  function Review(c: CollectionItem): seq<Action> {
    [SetType(c.item.kind), SetResult(Some(ShownContent(c.item.content)))]
  }

  /** The open button on a drawing card only shows the content. */
  function OpenDrawing(c: CollectionItem): seq<Action> {
    [SetResult(Some(ShownContent(c.item.content)))]
  }

  /**
   Reviewing ends on the entry's kind with its bare content as the result and
   the working inputs cleared; the result view, as written, throws on it.
   */
  lemma ReviewEffect(s: AppState, c: CollectionItem)
    ensures var t := ReduceAll(s, Review(c));
      && t.activeType == c.item.kind
      && t.result == Some(ShownContent(c.item.content))
      && t.prompt == "" && !AnySelected(t.keywords) && !AnySelected(t.imageKeywords)
      && SameExcept(s, t, {TypeField, ResultField, PromptField, KeywordsField, ImageKeywordsField})
      && ResultDisplay(t.activeType, t.collections, t.result.value) == Thrown
  {
    var a := Review(c);
    var s1 := Reduce(s, a[0]);
    SetTypeEffect(s, c.item.kind);
    assert ReduceAll(s, a) == ReduceAll(s1, a[1..]);
    assert ReduceAll(s1, a[1..]) == ReduceAll(Reduce(s1, a[1]), a[2..]);
    assert a[2..] == [];
  }

  /** The order of the two dispatches matters: the kind switch clears the result, so the reversed order shows nothing. */
  lemma ReviewOrderMatters(s: AppState, c: CollectionItem)
    ensures ReduceAll(s, [SetResult(Some(ShownContent(c.item.content))), SetType(c.item.kind)]).result.None?
  {
    var a := [SetResult(Some(ShownContent(c.item.content))), SetType(c.item.kind)];
    var s1 := Reduce(s, a[0]);
    assert ReduceAll(s, a) == ReduceAll(s1, a[1..]);
    assert ReduceAll(s1, a[1..]) == ReduceAll(Reduce(s1, a[1]), a[2..]);
    assert a[2..] == [];
  }

  /** Opening a drawing sets its bare content as the result, on which the result view throws, and leaves everything else as it was. */
  lemma OpenDrawingEffect(s: AppState, c: CollectionItem)
    ensures var t := ReduceAll(s, OpenDrawing(c));
      && t.result == Some(ShownContent(c.item.content))
      && t.activeType == s.activeType
      && SameExcept(s, t, {ResultField})
      && ResultDisplay(t.activeType, t.collections, t.result.value) == Thrown
  {
    assert OpenDrawing(c)[1..] == [];
  }

  /** The trash button on a collected entry removes it: one fewer entry, and its id is gone. */
  lemma DeleteCardRemoves(s: AppState, saved: Option<string>, parse: string -> Parsed, i: int, now: int)
    requires InSync(s, saved, parse) && Providers.UniqueIds(s.collections)
    requires 0 <= i < |s.collections|
    ensures var t := ReduceAll(s, ToggleFromView(saved, parse, s.collections[i].item, now));
      && !IsCollected(t.collections, s.collections[i].item)
      && |t.collections| == |s.collections| - 1
  {
    var item := s.collections[i].item;
    ToggleFromViewEffect(s, saved, parse, item, now);
    var cs := CompactCollections(s.collections);
    assert cs[i].item.id == item.id;
    Providers.ToggleRemovesFirstMatch(cs, item, now);
  }
}

=== FILE: generation.dfy ===
/**
 The generation panel's `handleCreate`: per-kind validation, the actions it
 dispatches around the service call, the history item it appends, and the
 error message it leaves on screen. The service call is abstracted to its
 outcome: the envelope it returned, or an exception.
 */
module Generation {
  import opened Types
  import opened Store
  import Text

  const WritingValidationMessage := "请至少输入剧情描述或选择关键词"
  const DrawingValidationMessage := "请描述画面或选择视觉参数"
  const BlockedMessage := "创作之路受阻，请稍后再试"
  const NetworkMessage := "灵感源泉枯竭，请检查网络后重试"

  /** Which service operation is called, with its arguments. */
  datatype ApiCall =
    | TextCall(topic: string, style: Style, keywords: KeywordMap<Facet>)
    | ImageCall(prompt: string, imageKeywords: KeywordMap<ImageFacet>)
    | InspirationCall

  /** What the awaited service call produced. */
  datatype CallOutcome = Returned(envelope: Envelope<Content>) | Threw

  /** The dispatched actions in order, the error shown afterwards, and the service call made, if any. */
  datatype Create = Create(dispatched: seq<Action>, error: Option<string>, call: Option<ApiCall>)

  /** The validation message for the active kind, if its required input is missing. */
  function ValidationError(s: AppState): (r: Option<string>)
    ensures r.Some? <==> (s.prompt == "" && (
      || (s.activeType == Writing && !AnySelected(s.keywords))
      || (s.activeType == Drawing && !AnySelected(s.imageKeywords))))
    ensures r.Some? ==> r.value != ""
  {
    match s.activeType
    case Writing => if s.prompt == "" && !AnySelected(s.keywords) then Some(WritingValidationMessage) else None
    case Drawing => if s.prompt == "" && !AnySelected(s.imageKeywords) then Some(DrawingValidationMessage) else None
    // The source's remaining guard `!prompt && activeType !== 'inspiration'` cannot hold for inspiration.
    case Inspiration => None
  }

  function ApiCallFor(s: AppState): ApiCall {
    match s.activeType
    case Writing => TextCall(s.prompt, s.activeStyle, s.keywords)
    case Drawing => ImageCall(s.prompt, s.imageKeywords)
    case Inspiration => InspirationCall
  }

  /** The history entry built from a successful response; the two `Date.now()` readings are parameters. */
  function NewItem(s: AppState, data: Content, idClock: nat, stampClock: nat): HistoryItem {
    HistoryItem(
      Text.Decimal(idClock),
      s.activeType,
      if s.activeType == Writing then Some(s.activeStyle) else None,
      s.prompt,
      if s.activeType == Writing then Some(s.keywords) else None,
      if s.activeType == Drawing then Some(s.imageKeywords) else None,
      data,
      stampClock)
  }

  /** `response.success && response.data` */
  predicate Delivered(e: Envelope<Content>) {
    e.success && e.data.Some?
  }

  /** `handleCreate()` */
  function HandleCreate(s: AppState, outcome: CallOutcome, idClock: nat, stampClock: nat): Create {
    match ValidationError(s)
    case Some(message) => Create([], Some(message), None)
    case None =>
      var start := [SetLoading(true), SetResult(None)];
      var finish := [SetLoading(false)];
      var call := Some(ApiCallFor(s));
      match outcome
      case Threw => Create(start + finish, Some(NetworkMessage), call)
      case Returned(e) =>
        if Delivered(e) then
          var item := NewItem(s, e.data.value, idClock, stampClock);
          Create(start + [SetResult(Some(ShownContent(e.data.value))), AddHistory(item)] + finish, None, call)
        else
          Create(start + finish, Some(OrElse(e.error, BlockedMessage)), call)
  }

  function CountAdds(actions: seq<Action>): nat
    decreases |actions|
  {
    if |actions| == 0 then 0 else (if actions[0].AddHistory? then 1 else 0) + CountAdds(actions[1..])
  }

  lemma {:induction false} CountAddsAppend(xs: seq<Action>, ys: seq<Action>)
    ensures CountAdds(xs + ys) == CountAdds(xs) + CountAdds(ys)
    decreases |xs|
  {
    if |xs| == 0 {
      assert xs + ys == ys;
    } else {
      assert (xs + ys)[0] == xs[0];
      assert (xs + ys)[1..] == xs[1..] + ys;
      CountAddsAppend(xs[1..], ys);
    }
  }

  /** Missing input for writing or drawing shows a message and dispatches nothing; inspiration never fails here. */
  lemma ValidationBlocks(s: AppState, outcome: CallOutcome, idClock: nat, stampClock: nat)
    ensures var r := HandleCreate(s, outcome, idClock, stampClock);
      && ((s.activeType == Writing && s.prompt == "" && !AnySelected(s.keywords)) ==>
            r.dispatched == [] && r.call.None? && r.error == Some(WritingValidationMessage))
      && ((s.activeType == Drawing && s.prompt == "" && !AnySelected(s.imageKeywords)) ==>
            r.dispatched == [] && r.call.None? && r.error == Some(DrawingValidationMessage))
      && (s.activeType == Inspiration ==> r.call == Some(InspirationCall))
  {
  }

  /**
   Once validation passes, loading is set and the result cleared before the
   call, loading is cleared last on every path, and exactly one history entry
   is appended iff the response delivered data.
   */
  lemma LoadingBracketsCall(s: AppState, outcome: CallOutcome, idClock: nat, stampClock: nat)
    requires ValidationError(s).None?
    ensures var r := HandleCreate(s, outcome, idClock, stampClock);
      && |r.dispatched| >= 3
      && r.dispatched[..2] == [SetLoading(true), SetResult(None)]
      && r.dispatched[|r.dispatched| - 1] == SetLoading(false)
      && (forall i :: 0 < i < |r.dispatched| - 1 ==> !r.dispatched[i].SetLoading?)
      && r.call == Some(ApiCallFor(s))
      && CountAdds(r.dispatched) == (if outcome.Returned? && Delivered(outcome.envelope) then 1 else 0)
  {
    var r := HandleCreate(s, outcome, idClock, stampClock);
    var start := [SetLoading(true), SetResult(None)];
    var finish := [SetLoading(false)];
    if outcome.Returned? && Delivered(outcome.envelope) {
      var item := NewItem(s, outcome.envelope.data.value, idClock, stampClock);
      var mid := [SetResult(Some(ShownContent(outcome.envelope.data.value))), AddHistory(item)];
      CountAddsAppend(start + mid, finish);
      CountAddsAppend(start, mid);
      assert CountAdds(mid) == 1 by {
        assert mid[1..][1..] == [];
      }
    } else {
      CountAddsAppend(start, finish);
    }
  }

  /** The appended entry records the kind, and the style and keywords only for writing, the image keywords only for drawing. */
  lemma NewItemFields(s: AppState, data: Content, idClock: nat, stampClock: nat)
    ensures var item := NewItem(s, data, idClock, stampClock);
      && item.kind == s.activeType && item.prompt == s.prompt && item.content == data
      && (item.style.Some? <==> s.activeType == Writing)
      && (item.keywords.Some? <==> s.activeType == Writing)
      && (item.imageKeywords.Some? <==> s.activeType == Drawing)
      && (s.activeType == Writing ==> item.style == Some(s.activeStyle) && item.keywords == Some(s.keywords))
      && (s.activeType == Drawing ==> item.imageKeywords == Some(s.imageKeywords))
      && Text.ParseDecimal(item.id) == idClock
  {
    Text.ParseDecimalOfDecimal(idClock);
  }

  /**
   The whole request seen through the reducer: a delivery shows the content
   and prepends exactly the new entry; any failure leaves history alone and no
   result shown; either way loading ends false and the rest is untouched.
   */
  lemma CreateThroughReducer(s: AppState, outcome: CallOutcome, idClock: nat, stampClock: nat)
    requires ValidationError(s).None?
    ensures var r := HandleCreate(s, outcome, idClock, stampClock);
      var t := ReduceAll(s, r.dispatched);
      && !t.loading
      && SameExcept(s, t, {LoadingField, ResultField, HistoryField})
      && (outcome.Returned? && Delivered(outcome.envelope) ==>
            && r.error.None?
            && t.result == Some(ShownContent(outcome.envelope.data.value))
            && t.history == Prepend(NewItem(s, outcome.envelope.data.value, idClock, stampClock), s.history))
      && (outcome.Threw? ==> r.error == Some(NetworkMessage) && t.result.None? && t.history == s.history)
      && (outcome.Returned? && !Delivered(outcome.envelope) ==>
            && r.error == Some(OrElse(outcome.envelope.error, BlockedMessage))
            && t.result.None? && t.history == s.history)
  {
    var r := HandleCreate(s, outcome, idClock, stampClock);
    var d := r.dispatched;
    if outcome.Returned? && Delivered(outcome.envelope) {
      var data := outcome.envelope.data.value;
      var item := NewItem(s, data, idClock, stampClock);
      assert d == [SetLoading(true), SetResult(None), SetResult(Some(ShownContent(data))), AddHistory(item), SetLoading(false)];
      var s1 := Reduce(s, d[0]);
      var s2 := Reduce(s1, d[1]);
      var s3 := Reduce(s2, d[2]);
      var s4 := Reduce(s3, d[3]);
      var s5 := Reduce(s4, d[4]);
      assert ReduceAll(s, d) == ReduceAll(s1, d[1..]);
      assert ReduceAll(s1, d[1..]) == ReduceAll(s2, d[2..]);
      assert ReduceAll(s2, d[2..]) == ReduceAll(s3, d[3..]);
      assert ReduceAll(s3, d[3..]) == ReduceAll(s4, d[4..]);
      assert ReduceAll(s4, d[4..]) == ReduceAll(s5, d[5..]);
      assert d[5..] == [];
    } else {
      assert d == [SetLoading(true), SetResult(None), SetLoading(false)];
      var s1 := Reduce(s, d[0]);
      var s2 := Reduce(s1, d[1]);
      var s3 := Reduce(s2, d[2]);
      assert ReduceAll(s, d) == ReduceAll(s1, d[1..]);
      assert ReduceAll(s1, d[1..]) == ReduceAll(s2, d[2..]);
      assert ReduceAll(s2, d[2..]) == ReduceAll(s3, d[3..]);
      assert d[3..] == [];
    }
  }

  /** Validation failure leaves the store exactly as it was. */
  lemma BlockedLeavesState(s: AppState, outcome: CallOutcome, idClock: nat, stampClock: nat)
    requires ValidationError(s).Some?
    ensures ReduceAll(s, HandleCreate(s, outcome, idClock, stampClock).dispatched) == s
  {
  }
}

=== FILE: history_views.dfy ===
/**
 The two history lists (`HistoryPanel.tsx`, `ArticleHistory.tsx`): their style
 labels, card headings, empty guards and the `M/D HH:MM` date of the article
 list. Local calendar fields of a timestamp are a parameter, as `Date`'s
 time-zone arithmetic is outside the model.
 */
module HistoryViews {
  import opened Types
  import Text

  const UnknownLabel := "未知"
  const SparkTitle := "灵感火花"

  // ---------------------------------------------------------------- style labels

  /** The style's value on the wire (`DanmeiStyle`). */
  function StyleKey(st: Style): string {
    match st
    case Ancient => "ancient"
    case Modern => "modern"
    case Fantasy => "fantasy"
    case Cyberpunk => "cyberpunk"
    case Campus => "campus"
  }

  /** The label table shared by both lists. */
  function StyleLabel(st: Style): string {
    match st
    case Ancient => "古风"
    case Modern => "现代"
    case Fantasy => "玄幻"
    case Campus => "校园"
    case Cyberpunk => "科幻"
  }

  /** Looking a string up in the label table's keys. */
  function KnownStyle(key: string): (r: Option<Style>)
    ensures r.Some? ==> StyleKey(r.value) == key
    ensures r.None? ==> forall st: Style :: StyleKey(st) != key
  {
    if key == "ancient" then Some(Ancient)
    else if key == "modern" then Some(Modern)
    else if key == "fantasy" then Some(Fantasy)
    else if key == "cyberpunk" then Some(Cyberpunk)
    else if key == "campus" then Some(Campus)
    else None
  }

  /** Every style is found under its own key, and distinct styles have distinct labels. */
  lemma StyleTable(st: Style, other: Style)
    ensures KnownStyle(StyleKey(st)) == Some(st)
    ensures StyleLabel(st) == StyleLabel(other) ==> st == other
    ensures StyleLabel(st) != "" && StyleLabel(st) != UnknownLabel
  {
  }

  /** `HistoryPanel`'s `getStyleLabel`: a missing or empty style is "unknown"; an unlisted one is shown as is. */
  function PanelStyleLabel(style: Option<string>): (r: string)
    ensures r != ""
    ensures style.None? || style.value == "" ==> r == UnknownLabel
    ensures style.Some? && KnownStyle(style.value).Some? ==> r == StyleLabel(KnownStyle(style.value).value)
    ensures style.Some? && style.value != "" && KnownStyle(style.value).None? ==> r == style.value
  {
    if style.None? || style.value == "" then UnknownLabel
    else match KnownStyle(style.value)
      case Some(st) => StyleLabel(st)
      case None => style.value
  }

  /** `ArticleHistory`'s `getStyleLabel`, called with `item.style || ''`. */
  function ArticleStyleLabel(style: string): (r: string)
    ensures KnownStyle(style).Some? ==> r == StyleLabel(KnownStyle(style).value) && r != ""
    ensures KnownStyle(style).None? ==> r == style
  {
    match KnownStyle(style)
    case Some(st) => StyleLabel(st)
    case None => style
  }

  /**
   The two lists agree on every non-empty style string; for a missing style
   the panel says "unknown" while the article list shows an empty label.
   */
  lemma StyleLabelsAgree(style: string)
    ensures style != "" ==> PanelStyleLabel(Some(style)) == ArticleStyleLabel(style)
    ensures PanelStyleLabel(None) == PanelStyleLabel(Some("")) == UnknownLabel
    ensures ArticleStyleLabel("") == ""
    ensures forall st: Style :: PanelStyleLabel(Some(StyleKey(st))) == StyleLabel(st) == ArticleStyleLabel(StyleKey(st))
  {
    forall st: Style ensures PanelStyleLabel(Some(StyleKey(st))) == StyleLabel(st) == ArticleStyleLabel(StyleKey(st)) {
      StyleTable(st, st);
    }
  }

  /** The style as the item stores it. */
  function ItemStyle(item: HistoryItem): Option<string> {
    match item.style
    case Some(st) => Some(StyleKey(st))
    case None => None
  }

  // ---------------------------------------------------------------- history panel

  /** A card of the history panel: kind (for its icon), style label and heading. */
  datatype PanelCard = PanelCard(kind: CreationType, styleLabel: string, heading: Option<string>)

  /** `item.type === 'writing' ? item.content.title : item.prompt || '灵感火花'` */
  function PanelHeading(item: HistoryItem): (r: Option<string>)
    ensures item.kind == Writing ==> r == item.content.title
    ensures item.kind != Writing ==> r.Some? && r.value != ""
    ensures item.kind != Writing && item.prompt != "" ==> r == Some(item.prompt)
    ensures item.kind != Writing && item.prompt == "" ==> r == Some(SparkTitle)
  {
    if item.kind == Writing then item.content.title
    else if item.prompt != "" then Some(item.prompt) else Some(SparkTitle)
  }

  function CardOf(item: HistoryItem): PanelCard {
    PanelCard(item.kind, PanelStyleLabel(ItemStyle(item)), PanelHeading(item))
  }

  /** The panel renders nothing for an empty history and otherwise one card per item, in order. */
  function HistoryPanel(items: seq<HistoryItem>): (r: Option<seq<PanelCard>>)
    ensures r.None? <==> |items| == 0
    ensures r.Some? ==> |r.value| == |items|
  {
    if |items| == 0 then None else Some(seq(|items|, i requires 0 <= i < |items| => CardOf(items[i])))
  }

  /**
   A card carries its item's kind; an item with a style shows that style's
   label and one without shows "unknown"; a writing card is headed by the
   content's title, any other by its prompt, or "灵感火花" when that is empty.
   */
  lemma PanelCardLabels(items: seq<HistoryItem>, i: int)
    requires 0 <= i < |items|
    ensures var card := HistoryPanel(items).value[i];
      && card.kind == items[i].kind
      && (items[i].style.Some? ==> card.styleLabel == StyleLabel(items[i].style.value))
      && (items[i].style.None? ==> card.styleLabel == UnknownLabel)
      && (items[i].kind == Writing ==> card.heading == items[i].content.title)
      && (items[i].kind != Writing && items[i].prompt != "" ==> card.heading == Some(items[i].prompt))
      && (items[i].kind != Writing && items[i].prompt == "" ==> card.heading == Some(SparkTitle))
  {
    if items[i].style.Some? {
      StyleTable(items[i].style.value, items[i].style.value);
    }
  }

  // ---------------------------------------------------------------- article history

  /** The local calendar fields `Date` reports for a timestamp; the month counts from zero. */
  datatype LocalTime = LocalTime(month0: nat, day: nat, hours: nat, minutes: nat)

  predicate ValidTime(t: LocalTime) {
    t.month0 < 12 && 1 <= t.day <= 31 && t.hours < 24 && t.minutes < 60
  }

  /** `formatDate`: `M/D HH:MM` with the month from one, hours and minutes zero-padded. */
  function FormatDate(t: LocalTime): string {
    Text.Decimal(t.month0 + 1) + "/" + Text.Decimal(t.day) + " "
    + Text.PadStart2(Text.Decimal(t.hours)) + ":" + Text.PadStart2(Text.Decimal(t.minutes))
  }

  /** The text before the first `sep`, and the text after it. */
  function SplitAt(s: string, sep: char): (r: Option<(string, string)>)
    ensures r.Some? ==> s == r.value.0 + [sep] + r.value.1 && sep !in r.value.0
    ensures r.None? ==> sep !in s
    decreases |s|
  {
    if |s| == 0 then None
    else if s[0] == sep then Some(([], s[1..]))
    else match SplitAt(s[1..], sep)
      case None => None
      case Some((a, b)) =>
        assert s == [s[0]] + s[1..];
        Some(([s[0]] + a, b))
  }

  lemma {:induction false} SplitAtFirst(a: string, sep: char, b: string)
    requires sep !in a
    ensures SplitAt(a + [sep] + b, sep) == Some((a, b))
    decreases |a|
  {
    var s := a + [sep] + b;
    if |a| == 0 {
      assert s == [sep] + b;
    } else {
      assert s[0] == a[0];
      assert s[1..] == a[1..] + [sep] + b;
      SplitAtFirst(a[1..], sep, b);
      assert [a[0]] + a[1..] == a;
    }
  }

  /** Reads a formatted date back into its calendar fields. */
  function ReadDate(s: string): Option<LocalTime> {
    match SplitAt(s, '/')
    case None => None
    case Some((m, r1)) =>
      match SplitAt(r1, ' ')
      case None => None
      case Some((d, r2)) =>
        match SplitAt(r2, ':')
        case None => None
        case Some((h, mm)) =>
          if Text.AllDigits(m) && Text.AllDigits(d) && Text.AllDigits(h) && Text.AllDigits(mm) && Text.ParseDecimal(m) >= 1
          then Some(LocalTime(Text.ParseDecimal(m) - 1, Text.ParseDecimal(d), Text.ParseDecimal(h), Text.ParseDecimal(mm)))
          else None
  }

  /** Padding a number below 100 is its two-digit form. */
  lemma PadIsTwoDigits(n: nat)
    requires n < 100
    ensures Text.PadStart2(Text.Decimal(n)) == Text.TwoDigits(n)
  {
  }

  /**
   The date text carries the whole calendar reading: it parses back to the
   same fields, and its clock part is always five characters.
   */
  lemma FormatDateReadBack(t: LocalTime)
    requires ValidTime(t)
    ensures ReadDate(FormatDate(t)) == Some(t)
    ensures var s := FormatDate(t);
      |s| >= 9 && s[|s| - 3] == ':' && s[|s| - 6] == ' '
  {
    var m := Text.Decimal(t.month0 + 1);
    var d := Text.Decimal(t.day);
    PadIsTwoDigits(t.hours);
    PadIsTwoDigits(t.minutes);
    var h := Text.TwoDigits(t.hours);
    var mm := Text.TwoDigits(t.minutes);
    var s := FormatDate(t);
    Text.ParseDecimalOfDecimal(t.month0 + 1);
    Text.ParseDecimalOfDecimal(t.day);
    assert '/' !in m && ' ' !in d && ':' !in h;
    var r2 := h + [':'] + mm;
    var r1 := d + [' '] + r2;
    assert s == m + ['/'] + r1;
    SplitAtFirst(m, '/', r1);
    SplitAtFirst(d, ' ', r2);
    SplitAtFirst(h, ':', mm);
  }

  /** A row of the article list: style label, formatted date and the prompt. */
  datatype ArticleRow = ArticleRow(styleLabel: string, date: string, heading: string)

  function RowOf(item: HistoryItem, localTime: int -> LocalTime): ArticleRow {
    ArticleRow(ArticleStyleLabel(ItemStyle(item).GetOr("")), FormatDate(localTime(item.timestamp)), item.prompt)
  }

  /** The article list renders nothing for an empty history and otherwise one row per item, in order. */
  function ArticleHistory(history: seq<HistoryItem>, localTime: int -> LocalTime): (r: Option<seq<ArticleRow>>)
    ensures r.None? <==> |history| == 0
    ensures r.Some? ==> |r.value| == |history|
  {
    if |history| == 0 then None
    else Some(seq(|history|, i requires 0 <= i < |history| => RowOf(history[i], localTime)))
  }

  /** Each row's date reads back to the item's local time, and its heading is the item's prompt. */
  lemma ArticleRowFields(history: seq<HistoryItem>, localTime: int -> LocalTime, i: int)
    requires 0 <= i < |history| && ValidTime(localTime(history[i].timestamp))
    ensures var row := ArticleHistory(history, localTime).value[i];
      && ReadDate(row.date) == Some(localTime(history[i].timestamp))
      && row.heading == history[i].prompt
      && (history[i].style.Some? ==> row.styleLabel == StyleLabel(history[i].style.value))
      && (history[i].style.None? ==> row.styleLabel == "")
  {
    FormatDateReadBack(localTime(history[i].timestamp));
    if history[i].style.Some? {
      StyleTable(history[i].style.value, history[i].style.value);
    }
  }
}

=== FILE: http.dfy ===
/**
 What the HTTP handlers share: the parsed request body as the handlers
 destructure it, and the generator calls they make with it.
 */
module Http {
  import opened Types

  /** Keyword selections as they arrive in a body: facet name to chosen option. */
  type RawKeywords = map<string, string>

  /**
   A parsed JSON request body, reduced to the properties the handlers read;
   `None` is an absent property.
   */
  datatype Body = Body(
    topic: Option<string>,
    style: Option<string>,
    prompt: Option<string>,
    keywords: Option<RawKeywords>)

  /** `{}` */
  const EmptyBody := Body(None, None, None, None)

  /** A call into a generator (`wenMoWrite`, `huaYunPaint`, `spiritInspiration`) with its arguments. */
  datatype GeneratorCall =
    | WriteCall(topic: Option<string>, style: Option<string>, keywords: Option<RawKeywords>)
    | PaintCall(prompt: Option<string>, imageKeywords: Option<RawKeywords>)
    | InspireCall

  /** JavaScript truthiness of an optional string property. */
  predicate Truthy(s: Option<string>) {
    s.Some? && s.value != ""
  }
}

=== FILE: keywords.dfy ===
/**
 The two keyword selectors: their fixed facet/option tables, the
 active-option predicate, and the toggle that builds a one-facet payload for
 `SET_KEYWORDS` / `SET_IMAGE_KEYWORDS`.
 */
module Keywords {
  import opened Types

  // ---------------------------------------------------------------- tables

  /** The facets of the writing selector, in display order. */
  const Facets: seq<Facet> := [Seme, Uke, Era, Relationship, Plot, Length]

  function Options(f: Facet): seq<string> {
    match f
    case Seme => ["温柔总裁攻", "冰山医生攻", "阳光学生攻", "腹黑权臣攻", "禁欲教主攻", "傲娇影帝攻"]
    case Uke => ["清冷美人受", "傲娇学生受", "腹黑助理受", "软糯团宠受", "孤傲将军受", "慵懒黑客受"]
    case Era => ["现代都市", "古代架空", "校园青春", "星际未来", "无限流", "西幻史诗"]
    case Relationship => ["年上", "年下", "强强", "竹马竹马", "天降之星", "宿命之敌"]
    case Plot => ["甜宠", "虐恋情深", "破镜重圆", "治愈互救", "相爱相杀", "先婚后爱"]
    case Length => ["短篇1000字", "中篇3000字", "长篇8000字"]
  }

  /** The facets of the drawing selector, in display order. */
  const ImageFacets: seq<ImageFacet> :=
    [SemeFeature, UkeFeature, Composition, Lighting, ColorScheme, Atmosphere, Scene, Elements]

  function ImageOptions(f: ImageFacet): seq<string> {
    match f
    case SemeFeature => ["银发紫眸·挺拔绅士", "黑发黑眸·冷峻总裁", "金发蓝眸·阳光温暖", "高马尾·古风长袍", "军装制服·禁欲克制"]
    case UkeFeature => ["清冷美人·优雅高挑", "傲娇可爱·学院风", "黑客少年·简约休闲", "长发飘逸·古风白衣", "红瞳猫系·精致柔弱"]
    case Composition => ["双人互动·近景", "单人特写·侧面", "俯视视角·深景深", "仰视视角·英雄感", "对称美学·群体场景"]
    case Lighting => ["温暖柔和", "梦幻朦胧", "戏剧强烈·丁达尔", "冷调月光", "斑驳树影"]
    case ColorScheme => ["薰衣草紫", "樱花粉", "薄荷绿", "珍珠白", "水墨黑白", "夕阳暖橘"]
    case Atmosphere => ["浪漫唯美", "清新自然", "复古优雅", "现代简约", "赛博霓虹", "中式水墨"]
    case Scene => ["古代庭院", "现代都市", "校园教室", "自然森林", "漫天雪地", "星际空港"]
    case Elements => ["花瓣飞舞", "光影斑驳", "烟雾缭绕", "星光点点", "羽毛飘落", "水波纹理"]
  }

  /** The writing table lists every facet exactly once; `length` offers three options, the others six. */
  lemma WritingTableShape()
    ensures |Facets| == 6 && Distinct(Facets)
    ensures forall f: Facet :: f in Facets
    ensures |Options(Length)| == 3
    ensures forall f: Facet :: f != Length ==> |Options(f)| == 6
    ensures forall f: Facet :: Distinct(Options(f))
  {
    forall f: Facet ensures f in Facets {
      match f
      case Seme => assert Facets[0] == f;
      case Uke => assert Facets[1] == f;
      case Era => assert Facets[2] == f;
      case Relationship => assert Facets[3] == f;
      case Plot => assert Facets[4] == f;
      case Length => assert Facets[5] == f;
    }
  }

  /** The drawing table lists every facet exactly once, each with a non-empty list of distinct options. */
  lemma ImageTableShape()
    ensures |ImageFacets| == 8 && Distinct(ImageFacets)
    ensures forall f: ImageFacet :: f in ImageFacets
    ensures forall f: ImageFacet :: |ImageOptions(f)| > 0 && Distinct(ImageOptions(f))
  {
    forall f: ImageFacet ensures f in ImageFacets {
      match f
      case SemeFeature => assert ImageFacets[0] == f;
      case UkeFeature => assert ImageFacets[1] == f;
      case Composition => assert ImageFacets[2] == f;
      case Lighting => assert ImageFacets[3] == f;
      case ColorScheme => assert ImageFacets[4] == f;
      case Atmosphere => assert ImageFacets[5] == f;
      case Scene => assert ImageFacets[6] == f;
      case Elements => assert ImageFacets[7] == f;
    }
  }

  // ---------------------------------------------------------------- toggling

  /** The option button `opt` of facet `f` is highlighted. */
  predicate IsActive<F(!new)>(m: KeywordMap<F>, f: F, opt: string) {
    Lookup(m, f) == Some(opt)
  }

  /**
   `toggleKeyword(category, value)`: the payload `{ [category]: current === value ? undefined : value }`.
   */
  function TogglePayload<F(!new)>(m: KeywordMap<F>, f: F, value: string): (p: KeywordMap<F>)
    ensures p.Keys == {f}
    ensures IsActive(m, f, value) ==> p[f].None?
    ensures !IsActive(m, f, value) ==> p[f] == Some(value)
  {
    map[f := if Lookup(m, f) == Some(value) then None else Some(value)]
  }

  /** The reducer's `{ ...keywords, ...payload }`. */
  function Merge<F(!new)>(m: KeywordMap<F>, payload: KeywordMap<F>): (r: KeywordMap<F>)
    ensures r.Keys == m.Keys + payload.Keys
    ensures forall f :: f in payload ==> Lookup(r, f) == payload[f]
    ensures forall f :: f !in payload ==> Lookup(r, f) == Lookup(m, f)
  {
    m + payload
  }

  /** The state's keyword map after the toggle has been dispatched and merged. */
  function Toggle<F(!new)>(m: KeywordMap<F>, f: F, value: string): KeywordMap<F> {
    Merge(m, TogglePayload(m, f, value))
  }

  /**
   Choosing the selected option clears the facet, choosing any other option
   selects it, and every other facet keeps its value.
   */
  lemma ToggleEffect<F(!new)>(m: KeywordMap<F>, f: F, value: string)
    ensures IsActive(m, f, value) ==> Lookup(Toggle(m, f, value), f).None?
    ensures !IsActive(m, f, value) ==> Lookup(Toggle(m, f, value), f) == Some(value)
    ensures forall g :: g != f ==> Lookup(Toggle(m, f, value), g) == Lookup(m, g)
  {
  }

  /** Choosing the same option twice, from unset or from that option, restores the facet. */
  lemma ToggleTwiceRestores<F(!new)>(m: KeywordMap<F>, f: F, value: string)
    requires Lookup(m, f).None? || Lookup(m, f) == Some(value)
    ensures forall g :: Lookup(Toggle(Toggle(m, f, value), f, value), g) == Lookup(m, g)
  {
  }

  /** An option is active iff the facet holds it, so at most one option of a facet is active. */
  lemma AtMostOneActive<F(!new)>(m: KeywordMap<F>, f: F, a: string, b: string)
    requires IsActive(m, f, a) && IsActive(m, f, b)
    ensures a == b
  {
  }
}

=== FILE: openai.dfy ===
/**
 The OpenAI adapter: the configuration check, the normalisation of a chat
 completion's `message.content` into parsed JSON, and the data URI built from
 an image generation. The HTTP exchange is abstracted to the reply it yields;
 `JSON.parse` is an opaque partial function `parse`.
 */
module OpenAI {
  import opened Types

  const MissingKeyMessage := "未设置 OpenAI API 密钥，请在 .env.local 中配置 VITE_OPENAI_API_KEY"
  const EmptyContentMessage := "OpenAI 返回内容为空"
  const NoTextMessage := "OpenAI 未返回文本内容"
  const UnknownShapeMessage := "无法解析 OpenAI 返回的内容格式"
  const TextFailedMessage := "OpenAI 文本生成失败"
  const PaintFailedMessage := "OpenAI 绘画生成失败"
  const InspirationFailedMessage := "OpenAI 灵感生成失败"
  const NoImageMessage := "未获取到绘画图像数据"
  const DataUriPrefix := "data:image/png;base64,"

  /** `isOpenAIConfigured()`: the key (the empty string when unset) is truthy. */
  predicate IsConfigured(apiKey: string) {
    apiKey != ""
  }

  /** `ensureOpenAIConfigured()`: `None` when it returns, the thrown error otherwise. */
  function EnsureConfigured(apiKey: string): (r: Option<Error>)
    ensures r.None? <==> IsConfigured(apiKey)
    ensures r.Some? ==> r.value.message == MissingKeyMessage
  {
    if apiKey == "" then Some(Error(MissingKeyMessage)) else None
  }

  /**
   The shapes `message.content` can take: a falsy non-string value (absent,
   `null`, …), a string, an array of parts whose `text` is a string or not,
   or any other object with or without a string `text`.
   */
  datatype MessageContent =
    | NoContent
    | TextContent(text: string)
    | PartsContent(parts: seq<Option<string>>)
    | ObjectContent(textField: Option<string>)

  /** `parts.map(p => typeof p.text === "string" ? p.text : "").join("")` */
  function JoinParts(parts: seq<Option<string>>): (r: string)
    ensures r == "" <==> forall i :: 0 <= i < |parts| ==> parts[i].GetOr("") == ""
    decreases |parts|
  {
    if |parts| == 0 then "" else parts[0].GetOr("") + JoinParts(parts[1..])
  }

  /** `parseJsonContent(content)` */
  function ParseJsonContent<T>(content: MessageContent, parse: string -> Result<T, Error>): Result<T, Error> {
    match content
    case NoContent => Failure(Error(EmptyContentMessage))
    case TextContent(s) => if s == "" then Failure(Error(EmptyContentMessage)) else parse(s)
    case PartsContent(parts) =>
      var merged := JoinParts(parts);
      if merged == "" then Failure(Error(NoTextMessage)) else parse(merged)
    case ObjectContent(t) => if t.Some? then parse(t.value) else Failure(Error(UnknownShapeMessage))
  }

  /**
   Falsy content fails; a string is parsed as is; the parts of an array are
   joined and parsed unless nothing is left; an object is parsed from its
   string `text`, and every other shape fails.
   */
  lemma ParseJsonContentCases<T>(content: MessageContent, parse: string -> Result<T, Error>)
    ensures content.NoContent? || content == TextContent("") ==>
      ParseJsonContent(content, parse) == Failure(Error(EmptyContentMessage))
    ensures content.TextContent? && content.text != "" ==>
      ParseJsonContent(content, parse) == parse(content.text)
    ensures content.PartsContent? && (forall i :: 0 <= i < |content.parts| ==> content.parts[i].GetOr("") == "") ==>
      ParseJsonContent(content, parse) == Failure(Error(NoTextMessage))
    ensures content.PartsContent? && (exists i :: 0 <= i < |content.parts| && content.parts[i].GetOr("") != "") ==>
      ParseJsonContent(content, parse) == parse(JoinParts(content.parts))
    ensures content.ObjectContent? ==>
      ParseJsonContent(content, parse) ==
        (if content.textField.Some? then parse(content.textField.value) else Failure(Error(UnknownShapeMessage)))
  {
  }

  /** The parts' texts appear in order: joining `a + b` is joining `a`, then `b`. */
  lemma {:induction false} JoinPartsAppend(a: seq<Option<string>>, b: seq<Option<string>>)
    ensures JoinParts(a + b) == JoinParts(a) + JoinParts(b)
    decreases |a|
  {
    if |a| == 0 {
      assert a + b == b;
    } else {
      assert (a + b)[0] == a[0];
      assert (a + b)[1..] == a[1..] + b;
      JoinPartsAppend(a[1..], b);
    }
  }

  // ---------------------------------------------------------------- operations

  /** An adapter call: its outcome and whether a request was sent. */
  datatype Op<T> = Op(result: Result<T, Error>, requested: bool)

  /**
   The reply to a request: `response.ok`, the provider's `error.message`
   (empty when absent), the first choice's message content and the first
   image's `b64_json`.
   */
  datatype Reply = Reply(ok: bool, errorMessage: string, content: MessageContent, b64: Option<string>)

  /** The shared shape of `inkMuseWrite` and `sparkInspiration`. */
  function ChatCompletion<T>(apiKey: string, reply: Reply, parse: string -> Result<T, Error>, failMessage: string): (r: Op<T>)
    ensures r.requested <==> IsConfigured(apiKey)
    ensures !IsConfigured(apiKey) ==> r.result == Failure(Error(MissingKeyMessage))
    ensures IsConfigured(apiKey) && !reply.ok ==>
      r.result == Failure(Error(MessageOr(Error(reply.errorMessage), failMessage)))
    ensures IsConfigured(apiKey) && reply.ok ==> r.result == ParseJsonContent(reply.content, parse)
  {
    match EnsureConfigured(apiKey)
    case Some(e) => Op(Failure(e), false)
    case None =>
      if !reply.ok then Op(Failure(Error(MessageOr(Error(reply.errorMessage), failMessage))), true)
      else Op(ParseJsonContent(reply.content, parse), true)
  }

  /** `inkMuseWrite` */
  function InkMuseWrite(apiKey: string, reply: Reply, parse: string -> Result<Content, Error>): Op<Content> {
    ChatCompletion(apiKey, reply, parse, TextFailedMessage)
  }

  /** `sparkInspiration` */
  function SparkInspiration(apiKey: string, reply: Reply, parse: string -> Result<Content, Error>): Op<Content> {
    ChatCompletion(apiKey, reply, parse, InspirationFailedMessage)
  }

  /** `auraPaint`: the image as a PNG data URI, or an error. */
  function AuraPaint(apiKey: string, reply: Reply): (r: Op<string>)
    ensures r.requested <==> IsConfigured(apiKey)
    ensures !IsConfigured(apiKey) ==> r.result == Failure(Error(MissingKeyMessage))
    ensures IsConfigured(apiKey) && !reply.ok ==>
      r.result == Failure(Error(MessageOr(Error(reply.errorMessage), PaintFailedMessage)))
    ensures IsConfigured(apiKey) && reply.ok && (reply.b64.None? || reply.b64.value == "") ==>
      r.result == Failure(Error(NoImageMessage))
    ensures r.result.Success? <==> IsConfigured(apiKey) && reply.ok && reply.b64.Some? && reply.b64.value != ""
    ensures r.result.Success? ==>
      && |r.result.value| > |DataUriPrefix|
      && r.result.value[..|DataUriPrefix|] == DataUriPrefix
      && r.result.value[|DataUriPrefix|..] == reply.b64.value
  {
    match EnsureConfigured(apiKey)
    case Some(e) => Op(Failure(e), false)
    case None =>
      if !reply.ok then Op(Failure(Error(MessageOr(Error(reply.errorMessage), PaintFailedMessage))), true)
      else if reply.b64.None? || reply.b64.value == "" then Op(Failure(Error(NoImageMessage)), true)
      else Op(Success(DataUriPrefix + reply.b64.value), true)
  }
}

=== FILE: providers.dfy ===
/**
 The client-side service layer: the provider priority order, the sequential
 fallback chain over the configured providers, the envelope every generation
 returns, and the favourite toggle over the persisted collection list.

 Each provider call is abstracted to its outcome: `handlers(p)` is what the
 call to provider `p` would resolve to (`Success`) or reject with (`Failure`).
 */
module Providers {
  import opened Types
  import Store

  datatype Provider = OpenAI | Gemini

  const NoProviderMessage := "未配置任何可用的大模型，请检查 API 密钥设置"
  const AllUnavailableMessage := "所有模型提供方均不可用"
  const UnknownErrorMessage := "未知错误，请稍后重试"

  // ---------------------------------------------------------------- order

  /** `getProviderOrder`: the configured providers, OpenAI first. */
  function ProviderOrder(openaiConfigured: bool, geminiConfigured: bool): (r: seq<Provider>)
    ensures OpenAI in r <==> openaiConfigured
    ensures Gemini in r <==> geminiConfigured
    ensures |r| == (if openaiConfigured then 1 else 0) + (if geminiConfigured then 1 else 0)
    ensures openaiConfigured && geminiConfigured ==> r == [OpenAI, Gemini]
  {
    (if openaiConfigured then [OpenAI] else []) + (if geminiConfigured then [Gemini] else [])
  }

  lemma ProviderOrderDistinct(openaiConfigured: bool, geminiConfigured: bool)
    ensures Distinct(ProviderOrder(openaiConfigured, geminiConfigured))
  {
  }

  // ---------------------------------------------------------------- fallback

  /** The chain's outcome together with the providers it invoked, in order. */
  datatype Chain<T> = Chain(result: Result<T, Error>, invoked: seq<Provider>)

  /**
   The `for … of` loop of `runWithProviders` over the providers still to try:
   the first resolving call wins; a rejection is rethrown when the failing
   provider is the last one (`provider === providers[providers.length - 1]`)
   and passed over otherwise; running off the end throws the trailing error.
   */
  function Attempt<T>(rest: seq<Provider>, last: Provider, handlers: Provider -> Result<T, Error>): (c: Chain<T>)
    ensures c.invoked <= rest
    ensures |rest| > 0 ==> |c.invoked| > 0
    ensures forall i :: 0 <= i < |c.invoked| - 1 ==> handlers(c.invoked[i]).Failure?
    ensures c.result.Success? ==> |c.invoked| > 0 && c.result == handlers(c.invoked[|c.invoked| - 1])
    decreases |rest|
  {
    if |rest| == 0 then Chain(Failure(Error(AllUnavailableMessage)), [])
    else
      match handlers(rest[0])
      case Success(v) => Chain(Success(v), [rest[0]])
      case Failure(e) =>
        if rest[0] == last then Chain(Failure(e), [rest[0]])
        else
          var c := Attempt(rest[1..], last, handlers);
          assert [rest[0]] + c.invoked <= rest by {
            assert rest == [rest[0]] + rest[1..];
          }
          Chain(c.result, [rest[0]] + c.invoked)
  }

  /**
   Over a list of distinct providers ending in `last`, the loop only rethrows
   at the end: either some provider succeeds and every earlier one failed, or
   all of them are invoked and the last one's error surfaces.
   */
  lemma {:induction false} AttemptDistinct<T>(rest: seq<Provider>, handlers: Provider -> Result<T, Error>)
    requires |rest| > 0 && Distinct(rest)
    ensures var c := Attempt(rest, rest[|rest| - 1], handlers);
      && (c.result.Failure? ==> c.invoked == rest && c.result == handlers(rest[|rest| - 1]))
      && (c.result.Success? <==> exists i :: 0 <= i < |rest| && handlers(rest[i]).Success?)
    decreases |rest|
  {
    var last := rest[|rest| - 1];
    var c := Attempt(rest, last, handlers);
    if handlers(rest[0]).Failure? && rest[0] != last {
      var tail := rest[1..];
      assert tail[|tail| - 1] == last;
      AttemptDistinct(tail, handlers);
      if c.result.Success? {
        var d := Attempt(tail, last, handlers);
        var i :| 0 <= i < |tail| && handlers(tail[i]).Success?;
        assert handlers(rest[i + 1]).Success?;
      } else {
        assert c.invoked == [rest[0]] + tail;
        assert rest == [rest[0]] + tail;
        forall i | 0 <= i < |rest| ensures handlers(rest[i]).Failure? {
          if i > 0 {
            assert rest[i] == c.invoked[i];
            if i < |c.invoked| - 1 {
            } else {
              assert rest[i] == last;
            }
          }
        }
      }
    } else if handlers(rest[0]).Failure? {
      assert |rest| == 1;
    }
  }

  /**
   `runWithProviders(handlers)`: no configured provider fails without invoking
   anything; otherwise the providers are tried in priority order, the first
   success is the result and nothing after it runs, and when every provider
   fails the last one's error is the overall error.
   */
  function RunWithProviders<T>(openaiConfigured: bool, geminiConfigured: bool, handlers: Provider -> Result<T, Error>): (c: Chain<T>)
    ensures var order := ProviderOrder(openaiConfigured, geminiConfigured);
      && (|order| == 0 ==> c == Chain(Failure(Error(NoProviderMessage)), []))
      && c.invoked <= order
      && (forall i :: 0 <= i < |c.invoked| - 1 ==> handlers(c.invoked[i]).Failure?)
      && (c.result.Success? ==> |c.invoked| > 0 && c.result == handlers(c.invoked[|c.invoked| - 1]))
      && (c.result.Success? <==> exists i :: 0 <= i < |order| && handlers(order[i]).Success?)
      && (|order| > 0 && c.result.Failure? ==>
            c.invoked == order && c.result == handlers(order[|order| - 1]))
  {
    var order := ProviderOrder(openaiConfigured, geminiConfigured);
    if |order| == 0 then Chain(Failure(Error(NoProviderMessage)), [])
    else
      ProviderOrderDistinct(openaiConfigured, geminiConfigured);
      AttemptDistinct(order, handlers);
      Attempt(order, order[|order| - 1], handlers)
  }

  /** With both providers configured: a failing OpenAI falls through to Gemini; a succeeding one stops the chain. */
  lemma FallbackScenarios<T>(handlers: Provider -> Result<T, Error>)
    ensures handlers(OpenAI).Success? ==>
      RunWithProviders(true, true, handlers) == Chain(handlers(OpenAI), [OpenAI])
    ensures handlers(OpenAI).Failure? ==>
      RunWithProviders(true, true, handlers) == Chain(handlers(Gemini), [OpenAI, Gemini])
  {
    var c := RunWithProviders(true, true, handlers);
    if handlers(OpenAI).Success? {
      assert c.invoked <= [OpenAI, Gemini];
      assert c.result.Success?;
      assert |c.invoked| == 1;
    } else {
      if c.result.Success? {
        assert |c.invoked| == 2;
      }
    }
  }

  // ---------------------------------------------------------------- envelopes

  /** `handleError(e)` */
  function HandleError<T>(e: Error): (r: Envelope<T>)
    ensures !r.success && r.data.None? && r.status == 500
    ensures r.error == Some(MessageOr(e, UnknownErrorMessage)) && r.error.value != ""
  {
    Fail(MessageOr(e, UnknownErrorMessage), 500)
  }

  /** A generation call: the envelope returned and the providers it invoked. */
  datatype Call<T> = Call(envelope: Envelope<T>, invoked: seq<Provider>)

  function Envelop<T>(r: Result<T, Error>): Envelope<T> {
    match r
    case Success(v) => Respond(v)
    case Failure(e) => HandleError(e)
  }

  /** `api.generateText` and `api.generateInspiration`: the chain's result wrapped in an envelope. */
  function GenerateContent(openaiConfigured: bool, geminiConfigured: bool, handlers: Provider -> Result<Content, Error>): (c: Call<Content>)
    ensures var chain := RunWithProviders(openaiConfigured, geminiConfigured, handlers);
      && c.invoked == chain.invoked
      && (chain.result.Success? ==> c.envelope == Envelope(true, Some(chain.result.value), None, 200))
      && (chain.result.Failure? ==>
            c.envelope == Envelope(false, None, Some(MessageOr(chain.result.error, UnknownErrorMessage)), 500))
  {
    var chain := RunWithProviders(openaiConfigured, geminiConfigured, handlers);
    Call(Envelop(chain.result), chain.invoked)
  }

  /** `api.generateImage`: a successful chain yields exactly `{ imageUrl, description: prompt }`. */
  function GenerateImage(openaiConfigured: bool, geminiConfigured: bool, prompt: string, handlers: Provider -> Result<string, Error>): (c: Call<Content>)
    ensures var chain := RunWithProviders(openaiConfigured, geminiConfigured, handlers);
      && c.invoked == chain.invoked
      && (chain.result.Success? ==>
            c.envelope == Envelope(true, Some(ImageContent(chain.result.value, prompt)), None, 200))
      && (chain.result.Failure? ==>
            c.envelope == Envelope(false, None, Some(MessageOr(chain.result.error, UnknownErrorMessage)), 500))
  {
    var chain := RunWithProviders(openaiConfigured, geminiConfigured, handlers);
    match chain.result
    case Success(url) => Call(Respond(ImageContent(url, prompt)), chain.invoked)
    case Failure(e) => Call(HandleError(e), chain.invoked)
  }

  /** With no provider configured every generation fails with the configuration message and calls nothing. */
  lemma NoProviderConfigured(prompt: string, text: Provider -> Result<Content, Error>, image: Provider -> Result<string, Error>)
    ensures GenerateContent(false, false, text) == Call(Envelope(false, None, Some(NoProviderMessage), 500), [])
    ensures GenerateImage(false, false, prompt, image) == Call(Envelope(false, None, Some(NoProviderMessage), 500), [])
  {
  }

  // ---------------------------------------------------------------- favourites

  /**
   The collection list `toggleFavorite` starts from: a missing, unparseable or
   `null` blob, or a falsy property, gives `[]`; a drifted property makes the
   first list operation throw.
   */
  function StoredCollections(saved: Option<string>, parse: string -> Store.Parsed): (r: Result<seq<CollectionItem>, Error>)
    ensures !Store.HasBlob(saved) ==> r == Success([])
    ensures Store.HasBlob(saved) && !parse(saved.value).Value? ==> r == Success([])
    ensures r.Failure? <==>
      Store.HasBlob(saved) && parse(saved.value).Value?
      && parse(saved.value).fields.collections.Some? && parse(saved.value).fields.collections.value.Drifted?
    ensures r.Failure? ==> r.error == parse(saved.value).fields.collections.value.thrown
  {
    if !Store.HasBlob(saved) then Success([])
    else match parse(saved.value)
      case Value(f) => (
        match f.collections
        case None => Success([])
        case Some(Listed(cs)) => Success(cs)
        case Some(Drifted(e)) => Failure(e))
      case _ => Success([])
  }

  /** `collections.findIndex(c => c.id === id)` */
  function FindIndex(cs: seq<CollectionItem>, id: string): (i: int)
    ensures -1 <= i < |cs|
    ensures i >= 0 ==> cs[i].item.id == id && forall j :: 0 <= j < i ==> cs[j].item.id != id
    ensures i == -1 ==> forall j :: 0 <= j < |cs| ==> cs[j].item.id != id
    decreases |cs|
  {
    if |cs| == 0 then -1
    else if cs[0].item.id == id then 0
    else
      var k := FindIndex(cs[1..], id);
      if k == -1 then -1 else k + 1
  }

  predicate HasId(cs: seq<CollectionItem>, id: string) {
    exists j :: 0 <= j < |cs| && cs[j].item.id == id
  }

  predicate UniqueIds(cs: seq<CollectionItem>) {
    forall i, j :: 0 <= i < j < |cs| ==> cs[i].item.id != cs[j].item.id
  }

  /** The list operation of `toggleFavorite`: splice out the first match, or prepend and keep ten. */
  function ToggleList(cs: seq<CollectionItem>, item: HistoryItem, now: int): seq<CollectionItem> {
    var i := FindIndex(cs, item.id);
    if i > -1 then cs[..i] + cs[i + 1..]
    else Store.Truncate([CollectionItem(item, now)] + cs)
  }

  /**
   `api.toggleFavorite(item)`: reads the persisted list, toggles, and returns
   the new list in a success envelope; a drifted list throws, and the error
   goes through `handleError`. The storage blob is only read.
   */
  function ToggleFavorite(saved: Option<string>, parse: string -> Store.Parsed, item: HistoryItem, now: int): (r: Envelope<seq<CollectionItem>>)
    ensures var stored := StoredCollections(saved, parse);
      && (r.success <==> stored.Success?)
      && (stored.Success? ==> r.status == 200 && r.error.None? && r.data == Some(ToggleList(stored.value, item, now)))
      && (stored.Failure? ==>
            r.status == 500 && r.data.None? && r.error == Some(MessageOr(stored.error, UnknownErrorMessage)))
  {
    match StoredCollections(saved, parse)
    case Success(cs) => Respond(ToggleList(cs, item, now))
    case Failure(e) => HandleError(e)
  }

  /** On a present id only the first matching entry goes; nothing is truncated or re-stamped. */
  lemma ToggleRemovesFirstMatch(cs: seq<CollectionItem>, item: HistoryItem, now: int)
    requires HasId(cs, item.id)
    ensures var r := ToggleList(cs, item, now);
      var i := FindIndex(cs, item.id);
      && 0 <= i && cs[i].item.id == item.id
      && (forall j :: 0 <= j < i ==> cs[j].item.id != item.id)
      && r == cs[..i] + cs[i + 1..]
      && |r| == |cs| - 1
      && (forall x :: x in r ==> x in cs)
  {
  }

  /** On an absent id the item leads with the new timestamp and the list is cut to ten. */
  lemma ToggleAddsAtHead(cs: seq<CollectionItem>, item: HistoryItem, now: int)
    requires !HasId(cs, item.id)
    ensures var r := ToggleList(cs, item, now);
      && r[0] == CollectionItem(item, now)
      && |r| == (if |cs| < Store.Bound then |cs| + 1 else Store.Bound)
      && r[1..] <= cs
  {
    var r := ToggleList(cs, item, now);
    assert ([CollectionItem(item, now)] + cs)[1..] == cs;
  }

  /** Toggling an absent item twice from fewer than ten entries gives the original list back. */
  lemma ToggleTwiceRestores(cs: seq<CollectionItem>, item: HistoryItem, now: int, later: int)
    requires !HasId(cs, item.id) && |cs| < Store.Bound
    ensures ToggleList(ToggleList(cs, item, now), item, later) == cs
  {
    assert FindIndex(cs, item.id) == -1;
    var once := ToggleList(cs, item, now);
    assert once == [CollectionItem(item, now)] + cs;
    assert once[0].item.id == item.id;
    assert FindIndex(once, item.id) == 0;
    assert ToggleList(once, item, later) == once[..0] + once[1..];
    assert once[1..] == cs;
  }

  /** With ten entries already held, a double toggle is not the identity: the oldest entry is lost. */
  lemma ToggleTwiceAtBoundDropsOldest(cs: seq<CollectionItem>, item: HistoryItem, now: int, later: int)
    requires !HasId(cs, item.id) && |cs| == Store.Bound
    ensures ToggleList(ToggleList(cs, item, now), item, later) == cs[..Store.Bound - 1]
    ensures ToggleList(ToggleList(cs, item, now), item, later) != cs
  {
    var once := ToggleList(cs, item, now);
    assert once == ([CollectionItem(item, now)] + cs)[..Store.Bound];
    assert FindIndex(once, item.id) == 0;
    assert once[1..] == cs[..Store.Bound - 1];
  }

  /** With unique ids a toggle flips whether the item's id is collected. */
  lemma ToggleFlipsMembership(cs: seq<CollectionItem>, item: HistoryItem, now: int)
    requires UniqueIds(cs)
    ensures HasId(ToggleList(cs, item, now), item.id) <==> !HasId(cs, item.id)
  {
    var r := ToggleList(cs, item, now);
    if HasId(cs, item.id) {
    } else {
      assert r[0].item.id == item.id;
    }
  }

  /** A toggle keeps the ids of the list unique: a splice only drops an entry, and a prepend only happens for an absent id. */
  lemma ToggleKeepsUniqueIds(cs: seq<CollectionItem>, item: HistoryItem, now: int)
    requires UniqueIds(cs)
    ensures UniqueIds(ToggleList(cs, item, now))
  {
    var i := FindIndex(cs, item.id);
    var r := ToggleList(cs, item, now);
    if i > -1 {
      assert forall k :: 0 <= k < |r| ==> r[k] == (if k < i then cs[k] else cs[k + 1]);
    } else {
      var full := [CollectionItem(item, now)] + cs;
      assert forall k :: 1 <= k < |full| ==> full[k] == cs[k - 1];
      assert UniqueIds(full);
      assert r <= full;
    }
  }
}

=== FILE: server.dfy ===
/**
 The self-hosted server (`services/server/routes.ts`, `services/server/index.ts`):
 the three route handlers, request routing, body reading, static file
 serving with its single-page fallback, `path.join` onto the build directory,
 and the content-type table. The file system, `decodeURIComponent`, whether
 `new URL` accepts the Host header, `JSON.parse` and the generators' outcomes
 are parameters.
 */
module Server {
  import opened Types
  import opened Http

  const TextFallback := "文墨落笔受阻，请稍后再试"
  const ImageFallback := "画韵暂时无法提笔，请稍后再试"
  const InspirationFallback := "灵感暂未降临，请稍后再试"
  const BadRequestMessage := "Bad Request"
  const RouteNotFoundMessage := "API route not found"
  const ServerErrorMessage := "服务器处理请求时出现错误"
  const NotBuiltText := "Assets not built yet."
  const NotFoundText := "Not Found"
  const OctetStream := "application/octet-stream"

  const TextRoute := "/api/generate/text"
  const ImageRoute := "/api/generate/image"
  const InspirationRoute := "/api/generate/inspiration"

  // ---------------------------------------------------------------- route handlers

  /** A route handler's envelope and the generator call it made. Handlers never throw: every failure becomes a 500 envelope. */
  datatype Routed = Routed(payload: Envelope<Content>, call: GeneratorCall)

  function Caught(e: Error, fallback: string, call: GeneratorCall): (r: Routed)
    ensures !r.payload.success && r.payload.status == 500 && r.payload.error == Some(MessageOr(e, fallback))
  {
    Routed(Fail(MessageOr(e, fallback), 500), call)
  }

  /** `handleGenerateText(body)`: no validation; the topic and style are passed on as they came. */
  function HandleGenerateText(body: Body, outcome: Result<Content, Error>): (r: Routed)
    ensures r.call == WriteCall(body.topic, body.style, body.keywords)
    ensures r.payload.success <==> outcome.Success?
    ensures outcome.Success? ==> r.payload == Respond(outcome.value)
    ensures outcome.Failure? ==> r.payload == Fail(MessageOr(outcome.error, TextFallback), 500)
  {
    var call := WriteCall(body.topic, body.style, body.keywords);
    match outcome
    case Success(data) => Routed(Respond(data), call)
    case Failure(e) => Caught(e, TextFallback, call)
  }

  /** `handleGenerateImage(body)`: the description is the prompt as it came, possibly absent. */
  function HandleGenerateImage(body: Body, outcome: Result<string, Error>): (r: Routed)
    ensures r.call == PaintCall(body.prompt, body.keywords)
    ensures r.payload.success <==> outcome.Success?
    ensures outcome.Success? ==>
      (r.payload.data.Some? && r.payload.data.value.imageUrl == Some(outcome.value)
       && r.payload.data.value.description == body.prompt)
    ensures outcome.Failure? ==> r.payload == Fail(MessageOr(outcome.error, ImageFallback), 500)
  {
    var call := PaintCall(body.prompt, body.keywords);
    match outcome
    case Success(url) => Routed(Respond(Content(None, None, None, None, Some(url), body.prompt, None)), call)
    case Failure(e) => Caught(e, ImageFallback, call)
  }

  /** `handleGenerateInspiration()` */
  function HandleGenerateInspiration(outcome: Result<Content, Error>): (r: Routed)
    ensures r.call == InspireCall
    ensures r.payload.success <==> outcome.Success?
    ensures outcome.Success? ==> r.payload == Respond(outcome.value)
    ensures outcome.Failure? ==> r.payload == Fail(MessageOr(outcome.error, InspirationFallback), 500)
  {
    match outcome
    case Success(data) => Routed(Respond(data), InspireCall)
    case Failure(e) => Caught(e, InspirationFallback, InspireCall)
  }

  // ---------------------------------------------------------------- content types

  /** The index of the last `c` in `s`, or -1. */
  function LastIndexOf(s: string, c: char): (i: int)
    ensures -1 <= i < |s|
    ensures i >= 0 ==> s[i] == c && forall j :: i < j < |s| ==> s[j] != c
    ensures i == -1 ==> forall j :: 0 <= j < |s| ==> s[j] != c
    decreases |s|
  {
    if |s| == 0 then -1
    else if s[|s| - 1] == c then |s| - 1
    else LastIndexOf(s[..|s| - 1], c)
  }

  /** The last path segment. */
  function Basename(p: string): (b: string)
    ensures '/' !in b
  {
    p[LastIndexOf(p, '/') + 1..]
  }

  /**
   `path.extname(p)`: from the last dot of the last segment to its end, or
   nothing when that segment has no dot, starts with its only dot, or is `..`.
   */
  function Extname(p: string): (e: string)
    ensures e == "" || (e[0] == '.' && '.' !in e[1..] && '/' !in e)
  {
    var b := Basename(p);
    var i := LastIndexOf(b, '.');
    if i <= 0 || b == ".." then "" else b[i..]
  }

  const KnownExtensions := [".html", ".js", ".css", ".json", ".png", ".gif", ".jpg", ".jpeg", ".svg", ".ico", ".webp", ".woff", ".woff2"]

  /** The table of `getContentType`, keyed by extension. */
  function ContentTypeOf(ext: string): string {
    if ext == ".html" then "text/html"
    else if ext == ".js" then "application/javascript"
    else if ext == ".css" then "text/css"
    else if ext == ".json" then "application/json"
    else if ext == ".png" then "image/png"
    else if ext == ".gif" then "image/gif"
    else if ext == ".jpg" || ext == ".jpeg" then "image/jpeg"
    else if ext == ".svg" then "image/svg+xml"
    else if ext == ".ico" then "image/x-icon"
    else if ext == ".webp" then "image/webp"
    else if ext == ".woff" then "font/woff"
    else if ext == ".woff2" then "font/woff2"
    else OctetStream
  }

  /** `getContentType(filePath)` */
  function GetContentType(filePath: string): string {
    ContentTypeOf(Extname(filePath))
  }

  /** Only the listed extensions get a specific type, and the two JPEG spellings share one. */
  lemma ContentTypeTable(ext: string)
    ensures ContentTypeOf(ext) != OctetStream <==> ext in KnownExtensions
    ensures ContentTypeOf(".jpg") == ContentTypeOf(".jpeg") == "image/jpeg"
  {
  }

  /**
   A file `stem + ext` in any directory has extension `ext`: the last dot of
   the last segment wins, so `app.min.js` is `.js`.
   */
  lemma ExtnameOfFile(dir: string, stem: string, ext: string)
    requires stem != "" && '/' !in stem
    requires |ext| >= 2 && ext[0] == '.' && '.' !in ext[1..] && '/' !in ext
    ensures Extname(dir + "/" + stem + ext) == ext
  {
    var p := dir + "/" + stem + ext;
    var b := stem + ext;
    assert p == dir + ['/'] + b;
    assert p[|dir|] == '/';
    assert forall j :: |dir| < j < |p| ==> p[j] == b[j - |dir| - 1];
    assert LastIndexOf(p, '/') == |dir|;
    assert Basename(p) == b;
    assert b[|stem|] == '.';
    assert forall j :: |stem| < j < |b| ==> b[j] == ext[1..][j - |stem| - 1];
    assert LastIndexOf(b, '.') == |stem|;
    assert b != "..";
  }

  // ---------------------------------------------------------------- file paths

  /** The pieces of a path between its slashes, empty ones included: `"/a//b"` has the pieces `"", "a", "", "b"`. */
  function SplitSlash(s: string): (r: seq<string>)
    ensures |r| >= 1
    ensures forall i :: 0 <= i < |r| ==> '/' !in r[i]
    decreases |s|
  {
    if |s| == 0 then [""]
    else
      var rest := SplitSlash(s[1..]);
      if s[0] == '/' then [""] + rest else [[s[0]] + rest[0]] + rest[1..]
  }

  /** The pieces written back with a slash between each two. */
  function JoinSlash(pieces: seq<string>): string {
    if |pieces| == 0 then ""
    else if |pieces| == 1 then pieces[0]
    else pieces[0] + "/" + JoinSlash(pieces[1..])
  }

  /** Splitting at the slashes loses nothing: the pieces join back into the path. */
  lemma {:induction false} SplitJoin(s: string)
    ensures JoinSlash(SplitSlash(s)) == s
    decreases |s|
  {
    if |s| > 0 {
      var rest := SplitSlash(s[1..]);
      SplitJoin(s[1..]);
      if s[0] == '/' {
        assert SplitSlash(s) == [""] + rest;
        assert ([""] + rest)[1..] == rest;
      } else if |rest| > 1 {
        assert ([[s[0]] + rest[0]] + rest[1..])[1..] == rest[1..];
      }
    }
  }

  /** A piece with no slash is one piece. */
  lemma {:induction false} SplitNoSlash(a: string)
    requires '/' !in a
    ensures SplitSlash(a) == [a]
    decreases |a|
  {
    if |a| > 0 {
      SplitNoSlash(a[1..]);
      assert [a[0]] + a[1..] == a;
    }
  }

  /** A slash splits a path into the pieces of either side. */
  lemma {:induction false} SplitAppend(a: string, b: string)
    ensures SplitSlash(a + "/" + b) == SplitSlash(a) + SplitSlash(b)
    decreases |a|
  {
    if |a| == 0 {
      assert a + "/" + b == "/" + b;
      assert ("/" + b)[1..] == b;
    } else {
      assert (a + "/" + b)[1..] == a[1..] + "/" + b;
      SplitAppend(a[1..], b);
    }
  }

  /** Joining slash-free pieces and splitting again gives the same pieces. */
  lemma {:induction false} JoinSplit(pieces: seq<string>)
    requires |pieces| >= 1
    requires forall i :: 0 <= i < |pieces| ==> '/' !in pieces[i]
    ensures SplitSlash(JoinSlash(pieces)) == pieces
    decreases |pieces|
  {
    SplitNoSlash(pieces[0]);
    if |pieces| > 1 {
      SplitAppend(pieces[0], JoinSlash(pieces[1..]));
      JoinSplit(pieces[1..]);
      assert [pieces[0]] + pieces[1..] == pieces;
    }
  }

  /** Two non-empty runs of pieces join with one slash between them. */
  lemma {:induction false} JoinAppend(a: seq<string>, b: seq<string>)
    requires |a| >= 1 && |b| >= 1
    ensures JoinSlash(a + b) == JoinSlash(a) + "/" + JoinSlash(b)
    decreases |a|
  {
    if |a| > 1 {
      assert (a + b)[1..] == a[1..] + b;
      JoinAppend(a[1..], b);
    } else {
      assert (a + b)[1..] == b;
    }
  }

  /** The joined pieces end where the last piece ends. */
  lemma {:induction false} JoinEndsWithLast(pieces: seq<string>)
    requires |pieces| >= 1 && |pieces[|pieces| - 1]| >= 1
    ensures var j := JoinSlash(pieces); var last := pieces[|pieces| - 1];
      |j| >= 1 && j[|j| - 1] == last[|last| - 1]
    decreases |pieces|
  {
    if |pieces| > 1 {
      JoinEndsWithLast(pieces[1..]);
    }
  }

  /** A segment that a normalised absolute path keeps: not empty, not `.` and not `..`. */
  predicate KeptSegment(p: string) {
    p != "" && p != "." && p != ".."
  }

  predicate Normalised(segments: seq<string>) {
    forall i :: 0 <= i < |segments| ==> KeptSegment(segments[i])
  }

  /**
   Node's normalisation of an absolute path, piece by piece on top of the
   segments kept so far: an empty piece and `.` are dropped, `..` removes the
   last kept segment and is dropped at the root, and any other piece is kept.
   */
  function Resolve(kept: seq<string>, pieces: seq<string>): (r: seq<string>)
    ensures Normalised(kept) ==> Normalised(r)
    ensures |r| <= |kept| + |pieces|
    decreases |pieces|
  {
    if |pieces| == 0 then kept
    else if pieces[0] == "" || pieces[0] == "." then Resolve(kept, pieces[1..])
    else if pieces[0] == ".." then Resolve(if |kept| == 0 then [] else kept[..|kept| - 1], pieces[1..])
    else Resolve(kept + [pieces[0]], pieces[1..])
  }

  /** Segments that are already normalised are all kept, in order. */
  lemma {:induction false} ResolveNormalised(kept: seq<string>, pieces: seq<string>)
    requires Normalised(pieces)
    ensures Resolve(kept, pieces) == kept + pieces
    decreases |pieces|
  {
    if |pieces| > 0 {
      ResolveNormalised(kept + [pieces[0]], pieces[1..]);
      assert kept + [pieces[0]] + pieces[1..] == kept + pieces;
    }
  }

  /** Without a `..` piece nothing kept is ever removed: resolving on top of `a + b` keeps `a` in front. */
  lemma {:induction false} ResolveKeepsBase(a: seq<string>, b: seq<string>, pieces: seq<string>)
    requires forall i :: 0 <= i < |pieces| ==> pieces[i] != ".."
    ensures Resolve(a + b, pieces) == a + Resolve(b, pieces)
    decreases |pieces|
  {
    if |pieces| > 0 {
      if pieces[0] != "" && pieces[0] != "." {
        assert a + b + [pieces[0]] == a + (b + [pieces[0]]);
      }
      ResolveKeepsBase(a, if pieces[0] == "" || pieces[0] == "." then b else b + [pieces[0]], pieces[1..]);
    }
  }

  /** At least as many `..` pieces as kept segments climb back to the root, whatever was kept. */
  lemma {:induction false} ClimbToRoot(kept: seq<string>, n: nat, rest: seq<string>)
    requires n >= |kept|
    ensures Resolve(kept, seq(n, _ => "..") + rest) == Resolve([], rest)
    decreases n
  {
    var climb := seq(n, _ => "..") + rest;
    if n > 0 {
      assert climb[0] == "..";
      assert climb[1..] == seq(n - 1, _ => "..") + rest;
      ClimbToRoot(if |kept| == 0 then [] else kept[..|kept| - 1], n - 1, rest);
    } else {
      assert climb == rest;
    }
  }

  /** The absolute path of some segments, keeping a trailing slash when `p` had one. */
  function Absolute(segments: seq<string>, p: string): string {
    "/" + JoinSlash(segments) + (if |segments| > 0 && |p| > 0 && p[|p| - 1] == '/' then "/" else "")
  }

  /**
   `path.join(distPath, p)`, where `dist` are the segments of the absolute,
   normalised `distPath` that `path.resolve` gives: the pieces of `p` are
   resolved on top of the build directory, so `..` pieces climb out of it.
   */
  function JoinPath(dist: seq<string>, p: string): string {
    Absolute(Resolve(dist, SplitSlash(p)), p)
  }

  const IndexFile := "index.html"

  /** The index page inside the build directory. */
  function IndexPath(dist: seq<string>): string {
    Absolute(dist + [IndexFile], IndexFile)
  }

  /** Joining one plain file name puts it under the build directory. */
  lemma JoinFileName(dist: seq<string>, name: string)
    requires KeptSegment(name) && '/' !in name
    ensures JoinPath(dist, name) == Absolute(dist + [name], name)
  {
    SplitNoSlash(name);
    assert [name][1..] == [];
    assert Resolve(dist, [name]) == Resolve(dist + [name], []);
  }

  /** The index page's path is `path.join(distPath, "index.html")`. */
  lemma IndexPathIsJoin(dist: seq<string>)
    ensures IndexPath(dist) == JoinPath(dist, IndexFile)
  {
    JoinFileName(dist, IndexFile);
  }

  /** A path made of `n` pieces `..` and then plain segments splits back into exactly those pieces, after the root's empty one. */
  lemma SplitClimb(n: nat, target: seq<string>)
    requires Normalised(target) && |target| >= 1
    requires forall i :: 0 <= i < |target| ==> '/' !in target[i]
    ensures var climb := seq(n, _ => "..") + target; var p := "/" + JoinSlash(climb);
      && SplitSlash(p) == [""] + climb
      && p[|p| - 1] != '/'
  {
    var climb := seq(n, _ => "..") + target;
    var p := "/" + JoinSlash(climb);
    assert p[1..] == JoinSlash(climb);
    JoinSplit(climb);
    JoinEndsWithLast(climb);
    assert climb[|climb| - 1] == target[|target| - 1];
  }

  /**
   As written, the join reaches outside the build: a path that starts with as
   many `..` pieces as the build directory has segments names the same file
   as the rest of it taken from the file system's root.
   */
  lemma {:induction false} JoinEscapesBuild(dist: seq<string>, target: seq<string>)
    requires Normalised(target) && |target| >= 1
    requires forall i :: 0 <= i < |target| ==> '/' !in target[i]
    ensures JoinPath(dist, "/" + JoinSlash(seq(|dist|, _ => "..") + target)) == "/" + JoinSlash(target)
  {
    var climb := seq(|dist|, _ => "..") + target;
    SplitClimb(|dist|, target);
    assert ([""] + climb)[1..] == climb;
    ClimbToRoot(dist, |dist|, target);
    ResolveNormalised([], target);
    assert [] + target == target;
  }

  /**
   The evidently intended join: the request path is resolved on its own from
   the root, so its `..` pieces stop at the build directory, and the result is
   placed under the build directory.
   */
  function ConfinedPath(dist: seq<string>, p: string): string {
    Absolute(dist + Resolve([], SplitSlash(p)), p)
  }

  /** The confined path is the build directory itself or a path below it. */
  lemma ConfinedStaysInBuild(dist: seq<string>, p: string)
    requires |dist| >= 1
    ensures var r := ConfinedPath(dist, p); var base := "/" + JoinSlash(dist);
      && |base| <= |r| && r[..|base|] == base
      && (|r| == |base| || r[|base|] == '/')
  {
    var rest := Resolve([], SplitSlash(p));
    if |rest| >= 1 {
      JoinAppend(dist, rest);
    } else {
      assert dist + rest == dist;
    }
  }

  /** Where the path has no `..` piece the confined join is the join as written, so ordinary requests are served as before. */
  lemma ConfinedAgrees(dist: seq<string>, p: string)
    requires forall i :: 0 <= i < |SplitSlash(p)| ==> SplitSlash(p)[i] != ".."
    ensures ConfinedPath(dist, p) == JoinPath(dist, p)
  {
    ResolveKeepsBase(dist, [], SplitSlash(p));
    assert dist + [] == dist;
  }

  /** Confined, any number of leading `..` pieces stop at the build directory and the rest is taken below it. */
  lemma {:induction false} ConfinedClimbStops(dist: seq<string>, n: nat, target: seq<string>)
    requires Normalised(target) && |target| >= 1
    requires forall i :: 0 <= i < |target| ==> '/' !in target[i]
    ensures ConfinedPath(dist, "/" + JoinSlash(seq(n, _ => "..") + target)) == "/" + JoinSlash(dist + target)
  {
    var climb := seq(n, _ => "..") + target;
    SplitClimb(n, target);
    assert ([""] + climb)[1..] == climb;
    ClimbToRoot([], n, target);
    ResolveNormalised([], target);
    assert [] + target == target;
  }

  // ---------------------------------------------------------------- routing

  /**
   The request as the server sees it: `req.url` (absent or not), the method,
   whether `new URL(req.url, "http://" + host)` accepts the URL with the Host
   header (it throws on a host such as `a b`), the URL's path and the full
   body text.
   */
  datatype Request = Request(url: Option<string>, httpMethod: string, urlParses: bool, pathname: string, rawBody: string)

  /**
   The file system as the static handler sees it: whether the build
   directory exists, its segments, which paths are files, whether its index
   page exists, and `decodeURIComponent`, which fails on a malformed escape.
   */
  datatype Site = Site(distExists: bool, dist: seq<string>, isFile: string -> bool, indexExists: bool, decode: string -> Option<string>)

  /** The generators' outcomes for this request. */
  datatype Outcomes = Outcomes(text: Result<Content, Error>, image: Result<string, Error>, inspiration: Result<Content, Error>)

  datatype Response =
    | Json(code: int, payload: Envelope<Content>)
    | Empty(code: int)
    | FileStream(code: int, contentType: string, filePath: string)
    | Plain(code: int, text: string)
    /** The listener's promise rejected on an uncaught throw, and nothing is written back. */
    | NoResponse

  /** The response, with the generator call made on the way, if any. */
  datatype Served = Served(response: Response, call: Option<GeneratorCall>)

  predicate StartsWith(s: string, prefix: string) {
    |prefix| <= |s| && s[..|prefix|] == prefix
  }

  /** `readRequestBody`: an empty body reads as `{}`, anything else goes through `JSON.parse`. */
  function ReadRequestBody(raw: string, parse: string -> Result<Body, Error>): (r: Result<Body, Error>)
    ensures raw == "" ==> r == Success(EmptyBody)
    ensures raw != "" ==> r == parse(raw)
  {
    if raw == "" then Success(EmptyBody) else parse(raw)
  }

  /**
   `serveStaticFile`: the root means `/index.html`, the decoded path is
   joined to the build directory, and a miss falls back to the index page,
   then to 404. A malformed escape throws and nothing is answered.
   */
  function ServeStaticFile(pathname: string, site: Site): (r: Response)
    ensures r.FileStream? || r == Plain(404, NotFoundText) || r == NoResponse
    ensures r.FileStream? ==> r.code == 200
    ensures var d := site.decode(if pathname == "/" then "/index.html" else pathname);
      && (r == NoResponse <==> d.None?)
      && (d.Some? ==>
            var f := JoinPath(site.dist, d.value);
            && (site.isFile(f) ==> r == FileStream(200, GetContentType(f), f))
            && (!site.isFile(f) && site.indexExists ==> r == FileStream(200, "text/html", IndexPath(site.dist)))
            && (r == Plain(404, NotFoundText) <==> !site.isFile(f) && !site.indexExists))
  {
    var safePath := if pathname == "/" then "/index.html" else pathname;
    match site.decode(safePath)
    case None => NoResponse
    case Some(decoded) =>
      var filePath := JoinPath(site.dist, decoded);
      if site.isFile(filePath) then FileStream(200, GetContentType(filePath), filePath)
      else if site.indexExists then FileStream(200, "text/html", IndexPath(site.dist))
      else Plain(404, NotFoundText)
  }

  function ApiEnvelope(r: Routed): Served {
    Served(Json(r.payload.status, r.payload), Some(r.call))
  }

  /** The request listener. */
  function HandleRequest(req: Request, site: Site, parse: string -> Result<Body, Error>, outcomes: Outcomes): (s: Served)
    ensures req.url.None? ==> s == Served(Json(400, Fail(BadRequestMessage, 400)), None)
    ensures s.response.Json? ==> s.response.code == s.response.payload.status
    ensures s.call.Some? ==> s.response.Json? && req.url.Some? && req.httpMethod != "OPTIONS" && req.urlParses
    ensures req.url.Some? && req.httpMethod != "OPTIONS" && !req.urlParses ==> s == Served(NoResponse, None)
    ensures req.url.Some? && req.httpMethod != "OPTIONS" && req.urlParses && ReadRequestBody(req.rawBody, parse).Success? ==>
      var body := ReadRequestBody(req.rawBody, parse).value;
      && (req.pathname == TextRoute ==> s == ApiEnvelope(HandleGenerateText(body, outcomes.text)))
      && (req.pathname == ImageRoute ==> s == ApiEnvelope(HandleGenerateImage(body, outcomes.image)))
      && (req.pathname == InspirationRoute ==> s == ApiEnvelope(HandleGenerateInspiration(outcomes.inspiration)))
      && (StartsWith(req.pathname, "/api/") && req.pathname !in {TextRoute, ImageRoute, InspirationRoute} ==>
            s == Served(Json(404, Fail(RouteNotFoundMessage, 404)), None))
    ensures req.url.Some? && req.httpMethod != "OPTIONS" && req.urlParses && !StartsWith(req.pathname, "/api/") ==>
      s == Served(if site.distExists then ServeStaticFile(req.pathname, site) else Plain(404, NotBuiltText), None)
  {
    assert StartsWith(TextRoute, "/api/") && StartsWith(ImageRoute, "/api/") && StartsWith(InspirationRoute, "/api/");
    if req.url.None? then Served(Json(400, Fail(BadRequestMessage, 400)), None)
    else if req.httpMethod == "OPTIONS" then Served(Empty(204), None)
    else if !req.urlParses then Served(NoResponse, None)
    else if StartsWith(req.pathname, "/api/") then
      match ReadRequestBody(req.rawBody, parse)
      case Failure(e) => Served(Json(500, Fail(MessageOr(e, ServerErrorMessage), 500)), None)
      case Success(body) =>
        if req.pathname == TextRoute then ApiEnvelope(HandleGenerateText(body, outcomes.text))
        else if req.pathname == ImageRoute then ApiEnvelope(HandleGenerateImage(body, outcomes.image))
        else if req.pathname == InspirationRoute then ApiEnvelope(HandleGenerateInspiration(outcomes.inspiration))
        else Served(Json(404, Fail(RouteNotFoundMessage, 404)), None)
    else if site.distExists then Served(ServeStaticFile(req.pathname, site), None)
    else Served(Plain(404, NotBuiltText), None)
  }

  /**
   A generator runs exactly for the three routes with a readable body, and
   which one runs is decided by the path alone; every other request is
   answered without one.
   */
  lemma GeneratorOnlyOnRoutes(req: Request, site: Site, parse: string -> Result<Body, Error>, outcomes: Outcomes)
    ensures var s := HandleRequest(req, site, parse, outcomes);
      && (s.call.Some? <==>
            && req.url.Some? && req.httpMethod != "OPTIONS" && req.urlParses
            && req.pathname in {TextRoute, ImageRoute, InspirationRoute}
            && ReadRequestBody(req.rawBody, parse).Success?)
      && (s.call.Some? && req.pathname == TextRoute ==> s.call.value.WriteCall?)
      && (s.call.Some? && req.pathname == ImageRoute ==> s.call.value.PaintCall?)
      && (s.call.Some? && req.pathname == InspirationRoute ==> s.call.value == InspireCall)
  {
    assert StartsWith(TextRoute, "/api/") && StartsWith(ImageRoute, "/api/") && StartsWith(InspirationRoute, "/api/");
  }

  /** Apart from preflight, the method plays no part: a GET to a generation route runs the generator like a POST. */
  lemma MethodIgnored(req: Request, otherMethod: string, site: Site, parse: string -> Result<Body, Error>, outcomes: Outcomes)
    requires req.httpMethod != "OPTIONS" && otherMethod != "OPTIONS"
    ensures HandleRequest(req.(httpMethod := otherMethod), site, parse, outcomes) == HandleRequest(req, site, parse, outcomes)
  {
  }

  /** Preflight is answered before any routing, on every path, and reads nothing. */
  lemma PreflightFirst(req: Request, site: Site, parse: string -> Result<Body, Error>, outcomes: Outcomes)
    requires req.url.Some? && req.httpMethod == "OPTIONS"
    ensures HandleRequest(req, site, parse, outcomes) == Served(Empty(204), None)
  {
  }

  /** A body that does not parse fails every API path with 500, the unknown ones included, before the route is looked at. */
  lemma BadBodyBeforeRoute(req: Request, site: Site, parse: string -> Result<Body, Error>, outcomes: Outcomes)
    requires req.url.Some? && req.httpMethod != "OPTIONS" && req.urlParses && StartsWith(req.pathname, "/api/")
    requires req.rawBody != "" && parse(req.rawBody).Failure?
    ensures HandleRequest(req, site, parse, outcomes).response ==
      Json(500, Fail(MessageOr(parse(req.rawBody).error, ServerErrorMessage), 500))
  {
  }

  /** With the build present, a page path is always answered with the index page when nothing else matches. */
  lemma SinglePageFallback(req: Request, site: Site, parse: string -> Result<Body, Error>, outcomes: Outcomes)
    requires req.url.Some? && req.httpMethod != "OPTIONS" && req.urlParses && !StartsWith(req.pathname, "/api/")
    requires site.distExists && site.indexExists
    ensures var r := HandleRequest(req, site, parse, outcomes).response;
      var d := site.decode(if req.pathname == "/" then "/index.html" else req.pathname);
      && (r.FileStream? <==> d.Some?)
      && (r.FileStream? ==> r.code == 200)
      && (d.Some? && !site.isFile(JoinPath(site.dist, d.value)) ==>
            r == FileStream(200, "text/html", IndexPath(site.dist)))
  {
    assert HandleRequest(req, site, parse, outcomes).response == ServeStaticFile(req.pathname, site);
  }

  /**
   Nothing is answered exactly when something throws outside the `try`:
   `new URL` on the Host header, or `decodeURIComponent` on a page path of a
   present build.
   */
  lemma UnansweredOnlyOnThrow(req: Request, site: Site, parse: string -> Result<Body, Error>, outcomes: Outcomes)
    ensures HandleRequest(req, site, parse, outcomes).response == NoResponse <==>
      && req.url.Some? && req.httpMethod != "OPTIONS"
      && (|| !req.urlParses
          || (&& !StartsWith(req.pathname, "/api/") && site.distExists
              && site.decode(if req.pathname == "/" then "/index.html" else req.pathname).None?))
  {
  }
}

=== FILE: serverless.dfy ===
/**
 The serverless endpoints (`api/generate-text.ts`, `api/generate-image.ts`,
 `api/generate-inspiration.ts`): method check, input validation, the call into
 the generator and the envelope sent with its HTTP status. The generator's
 outcome for the call is a parameter.
 */
module Serverless {
  import opened Types
  import opened Http

  const MethodNotAllowedMessage := "Method Not Allowed"
  const MissingStyleMessage := "缺少必要的创作风格参数"
  const TextFailedMessage := "创作失败，请稍后再试"
  const MissingPromptMessage := "请描述想要呈现的画面"
  const ImageFailedMessage := "绘制失败，请稍后再试"
  const InspirationFailedMessage := "灵感采集失败，请稍后再试"

  /** `res.status(code).json(payload)`, with the generator call made on the way, if any. */
  datatype Reply = Reply(code: int, payload: Envelope<Content>, call: Option<GeneratorCall>)

  /** `methodNotAllowed()` */
  function MethodNotAllowed<T>(): (r: Envelope<T>)
    ensures !r.success && r.data.None? && r.error == Some(MethodNotAllowedMessage) && r.status == 405
  {
    CreateResponse(None, Some(false), Some(MethodNotAllowedMessage), Some(405))
  }

  /** Every handler sends the status its envelope carries, and succeeds exactly with 200. */
  predicate Consistent(r: Reply) {
    && r.code == r.payload.status
    && (r.payload.success <==> r.code == 200)
    && (r.payload.success ==> r.payload.data.Some? && r.payload.error.None?)
    && (!r.payload.success ==> r.payload.data.None? && r.payload.error.Some?)
  }

  /** The `catch` branch: the error's message, or the endpoint's fallback. */
  function Failed(e: Error, fallback: string, call: GeneratorCall): (r: Reply)
    ensures Consistent(r) && r.code == 500 && r.call == Some(call)
    ensures r.payload.error == Some(MessageOr(e, fallback))
  {
    Reply(500, Fail(MessageOr(e, fallback), 500), Some(call))
  }

  /** `POST /api/generate-text` */
  function GenerateText(httpMethod: string, body: Body, outcome: Result<Content, Error>): (r: Reply)
    ensures Consistent(r)
    ensures httpMethod != "POST" ==> r == Reply(405, MethodNotAllowed(), None)
    ensures r.call.Some? <==> httpMethod == "POST" && Truthy(body.style)
    ensures httpMethod == "POST" && !Truthy(body.style) ==> r.code == 400 && r.payload.error == Some(MissingStyleMessage)
    ensures r.call.Some? ==> r.call.value == WriteCall(Some(OrElse(body.topic, "")), body.style, body.keywords)
    ensures r.payload.success <==> r.call.Some? && outcome.Success?
    ensures r.payload.success ==> r.payload.data == Some(outcome.value)
    ensures r.call.Some? && outcome.Failure? ==> r.code == 500 && r.payload.error == Some(MessageOr(outcome.error, TextFailedMessage))
  {
    if httpMethod != "POST" then Reply(405, MethodNotAllowed(), None)
    else if !Truthy(body.style) then Reply(400, Fail(MissingStyleMessage, 400), None)
    else
      var call := WriteCall(Some(OrElse(body.topic, "")), body.style, body.keywords);
      match outcome
      case Success(data) => Reply(200, Respond(data), Some(call))
      case Failure(e) => Failed(e, TextFailedMessage, call)
  }

  /** `POST /api/generate-image` */
  function GenerateImage(httpMethod: string, body: Body, outcome: Result<string, Error>): (r: Reply)
    ensures Consistent(r)
    ensures httpMethod != "POST" ==> r == Reply(405, MethodNotAllowed(), None)
    ensures r.call.Some? <==> httpMethod == "POST" && Truthy(body.prompt)
    ensures httpMethod == "POST" && !Truthy(body.prompt) ==> r.code == 400 && r.payload.error == Some(MissingPromptMessage)
    ensures r.call.Some? ==> r.call.value == PaintCall(body.prompt, body.keywords)
    ensures r.payload.success <==> r.call.Some? && outcome.Success?
    ensures r.payload.success ==> r.payload.data == Some(ImageContent(outcome.value, body.prompt.value))
    ensures r.call.Some? && outcome.Failure? ==> r.code == 500 && r.payload.error == Some(MessageOr(outcome.error, ImageFailedMessage))
  {
    if httpMethod != "POST" then Reply(405, MethodNotAllowed(), None)
    else if !Truthy(body.prompt) then Reply(400, Fail(MissingPromptMessage, 400), None)
    else
      var call := PaintCall(body.prompt, body.keywords);
      match outcome
      case Success(url) => Reply(200, Respond(ImageContent(url, body.prompt.value)), Some(call))
      case Failure(e) => Failed(e, ImageFailedMessage, call)
  }

  /** `POST /api/generate-inspiration`: no input to validate. */
  function GenerateInspiration(httpMethod: string, outcome: Result<Content, Error>): (r: Reply)
    ensures Consistent(r)
    ensures httpMethod != "POST" ==> r == Reply(405, MethodNotAllowed(), None)
    ensures r.call.Some? <==> httpMethod == "POST"
    ensures r.call.Some? ==> r.call.value == InspireCall
    ensures r.payload.success <==> httpMethod == "POST" && outcome.Success?
    ensures r.payload.success ==> r.payload.data == Some(outcome.value)
    ensures httpMethod == "POST" && outcome.Failure? ==>
      r.code == 500 && r.payload.error == Some(MessageOr(outcome.error, InspirationFailedMessage))
  {
    if httpMethod != "POST" then Reply(405, MethodNotAllowed(), None)
    else match outcome
      case Success(data) => Reply(200, Respond(data), Some(InspireCall))
      case Failure(e) => Failed(e, InspirationFailedMessage, InspireCall)
  }

  /** No endpoint reaches a generator on anything but POST, nor without its required input. */
  lemma NoCallWithoutInput(httpMethod: string, body: Body, text: Result<Content, Error>, image: Result<string, Error>, spark: Result<Content, Error>)
    ensures httpMethod != "POST" ==>
      && GenerateText(httpMethod, body, text).call.None?
      && GenerateImage(httpMethod, body, image).call.None?
      && GenerateInspiration(httpMethod, spark).call.None?
    ensures body == EmptyBody ==>
      && GenerateText(httpMethod, body, text).code == (if httpMethod == "POST" then 400 else 405)
      && GenerateImage(httpMethod, body, image).code == (if httpMethod == "POST" then 400 else 405)
  {
  }
}

=== FILE: shell.dfy ===
/**
 The top-level composition (`App.tsx`): the theme toggle, persona choice and
 the action sequences the history list triggers.
 */
module Shell {
  import opened Types
  import opened Store

  /** `theme === 'light' ? 'dark' : 'light'` */
  function ToggleTheme(t: Theme): (r: Theme)
    ensures r != t
  {
    if t == Light then Dark else Light
  }

  lemma ToggleThemeInvolution(t: Theme)
    ensures ToggleTheme(ToggleTheme(t)) == t
    ensures ToggleTheme(Light) == Dark && ToggleTheme(Dark) == Light
  {
  }

  /** The header button: flips the theme and nothing else. */
  function ThemeButton(s: AppState): (a: Action)
    ensures Reduce(s, a).theme != s.theme && SameExcept(s, Reduce(s, a), {ThemeField})
  {
    SetTheme(ToggleTheme(s.theme))
  }

  /** Choosing a persona in the character selector. */
  function ChoosePersona(kind: CreationType): seq<Action> {
    [SetType(kind)]
  }

  /** A persona switch starts from a clean slate: the working inputs and the shown result are cleared. */
  lemma ChoosePersonaEffect(s: AppState, kind: CreationType)
    ensures var t := ReduceAll(s, ChoosePersona(kind));
      && t.activeType == kind && t.prompt == "" && t.result.None?
      && !AnySelected(t.keywords) && !AnySelected(t.imageKeywords)
      && SameExcept(s, t, {TypeField, ResultField, PromptField, KeywordsField, ImageKeywordsField})
  {
    SetTypeEffect(s, kind);
    assert ChoosePersona(kind)[1..] == [];
  }

  /** The history panel's `onSelect(item)`. */
  function SelectHistory(item: HistoryItem): seq<Action> {
    [SetType(item.kind)]
    + (if item.style.Some? then [SetStyle(item.style.value)] else [])
    + [SetPrompt(item.prompt), SetResult(Some(ShownItem(item)))]
  }

  /** The history panel's `onDelete(id)`. */
  function DeleteFromHistory(id: string): seq<Action> {
    [DeleteHistory(id)]
  }

  /**
   Because the kind switch runs first, selecting a history item ends with the
   item's kind, prompt and shown result, cleared keyword facets, the item's
   style when it has one, and history, collections, theme and loading as they were.
   */
  lemma SelectHistoryEffect(s: AppState, item: HistoryItem)
    ensures var t := ReduceAll(s, SelectHistory(item));
      && t.activeType == item.kind
      && t.prompt == item.prompt
      && t.result == Some(ShownItem(item))
      && t.keywords == map[] && t.imageKeywords == map[]
      && t.activeStyle == item.style.GetOr(s.activeStyle)
      && SameExcept(s, t, {TypeField, StyleField, PromptField, ResultField, KeywordsField, ImageKeywordsField})
  {
    var a := SelectHistory(item);
    var s1 := Reduce(s, SetType(item.kind));
    var s2 := if item.style.Some? then Reduce(s1, SetStyle(item.style.value)) else s1;
    var tail := [SetPrompt(item.prompt), SetResult(Some(ShownItem(item)))];
    var styleStep := if item.style.Some? then [SetStyle(item.style.value)] else [];
    ReduceAllAppend(s, [SetType(item.kind)] + styleStep, tail);
    ReduceAllAppend(s, [SetType(item.kind)], styleStep);
    assert ReduceAll(s, [SetType(item.kind)]) == s1 by {
      assert [SetType(item.kind)][1..] == [];
    }
    if item.style.Some? {
      assert ReduceAll(s1, styleStep) == s2 by {
        assert styleStep[1..] == [];
      }
    }
    var s3 := Reduce(s2, tail[0]);
    assert ReduceAll(s2, tail) == ReduceAll(s3, tail[1..]);
    assert ReduceAll(s3, tail[1..]) == ReduceAll(Reduce(s3, tail[1]), tail[2..]);
    assert tail[2..] == [];
  }

  /** Deleting from the list removes exactly the entries with that item's id. */
  lemma DeleteFromHistoryEffect(s: AppState, item: HistoryItem)
    ensures var t := ReduceAll(s, DeleteFromHistory(item.id));
      && (forall x :: x in t.history <==> x in s.history && x.id != item.id)
      && SameExcept(s, t, {HistoryField})
  {
    DeleteHistoryEffect(s, item.id);
    assert ReduceAll(s, DeleteFromHistory(item.id)) == Reduce(s, DeleteHistory(item.id)) by {
      assert DeleteFromHistory(item.id)[1..] == [];
    }
  }
}

=== FILE: store.dfy ===
/**
 The application store: the state record, the reducer `appReducer`, the
 startup hydration from the persisted blob and the snapshot the sync effect
 writes back.
 */
module Store {
  import opened Types
  import Keywords

  /** History keeps at most this many entries (and so do collections, when toggled). */
  const Bound := 10

  /** What the panel shows: a history item (history selection) or bare content (a fresh generation, a collection review). */
  datatype Shown = ShownItem(item: HistoryItem) | ShownContent(content: Content)

  datatype AppState = AppState(
    theme: Theme,
    activeType: CreationType,
    activeStyle: Style,
    prompt: string,
    keywords: KeywordMap<Facet>,
    imageKeywords: KeywordMap<ImageFacet>,
    loading: bool,
    result: Option<Shown>,
    history: seq<HistoryItem>,
    collections: seq<CollectionItem>)

  const InitialState := AppState(Light, Writing, Ancient, "", map[], map[], false, None, [], [])

  /** `Partial<AppState>`: a `None` field is absent from the payload. */
  datatype StatePatch = StatePatch(
    theme: Option<Theme>,
    activeType: Option<CreationType>,
    activeStyle: Option<Style>,
    prompt: Option<string>,
    keywords: Option<KeywordMap<Facet>>,
    imageKeywords: Option<KeywordMap<ImageFacet>>,
    loading: Option<bool>,
    result: Option<Option<Shown>>,
    history: Option<seq<HistoryItem>>,
    collections: Option<seq<CollectionItem>>)

  datatype Action =
    | SetTheme(theme: Theme)
    | SetType(kind: CreationType)
    | SetStyle(style: Style)
    | SetPrompt(prompt: string)
    | SetKeywords(keywords: KeywordMap<Facet>)
    | SetImageKeywords(imageKeywords: KeywordMap<ImageFacet>)
    | SetLoading(loading: bool)
    | SetResult(result: Option<Shown>)
    | AddHistory(item: HistoryItem)
    | DeleteHistory(id: string)
    | SetCollections(collections: seq<CollectionItem>)
    | LoadStorage(patch: StatePatch)

  // ---------------------------------------------------------------- framing

  datatype Field =
    ThemeField | TypeField | StyleField | PromptField | KeywordsField | ImageKeywordsField
    | LoadingField | ResultField | HistoryField | CollectionsField

  /** `s` and `t` hold the same value in field `f`. */
  predicate Agree(s: AppState, t: AppState, f: Field) {
    match f
    case ThemeField => s.theme == t.theme
    case TypeField => s.activeType == t.activeType
    case StyleField => s.activeStyle == t.activeStyle
    case PromptField => s.prompt == t.prompt
    case KeywordsField => s.keywords == t.keywords
    case ImageKeywordsField => s.imageKeywords == t.imageKeywords
    case LoadingField => s.loading == t.loading
    case ResultField => s.result == t.result
    case HistoryField => s.history == t.history
    case CollectionsField => s.collections == t.collections
  }

  /** Nothing outside `changed` differs between `s` and `t`. */
  predicate SameExcept(s: AppState, t: AppState, changed: set<Field>) {
    forall f: Field :: f !in changed ==> Agree(s, t, f)
  }

  // ---------------------------------------------------------------- history

  /** `[item, ...history].slice(0, 10)` */
  function Prepend(item: HistoryItem, history: seq<HistoryItem>): (r: seq<HistoryItem>)
    ensures |r| >= 1 && r[0] == item
    ensures |r| == if |history| < Bound then |history| + 1 else Bound
    ensures r[1..] <= history
  {
    var h := [item] + history;
    assert h[1..] == history;
    if |h| > Bound then h[..Bound] else h
  }

  /** `history.filter(i => i.id !== id)` */
  function RemoveId(history: seq<HistoryItem>, id: string): (r: seq<HistoryItem>)
    decreases |history|
  {
    if |history| == 0 then []
    else if history[0].id != id then [history[0]] + RemoveId(history[1..], id)
    else RemoveId(history[1..], id)
  }

  /** `sub` is `s` with some entries dropped and the rest in their original order. */
  predicate IsSubsequence<T(==)>(sub: seq<T>, s: seq<T>)
    decreases |s|
  {
    if |sub| == 0 then true
    else if |s| == 0 then false
    else if sub[0] == s[0] then IsSubsequence(sub[1..], s[1..])
    else IsSubsequence(sub, s[1..])
  }

  lemma {:induction false} RemoveIdSpec(history: seq<HistoryItem>, id: string)
    ensures forall x :: x in RemoveId(history, id) <==> x in history && x.id != id
    ensures IsSubsequence(RemoveId(history, id), history)
    ensures (forall x :: x in history ==> x.id != id) ==> RemoveId(history, id) == history
    decreases |history|
  {
    if |history| > 0 {
      RemoveIdSpec(history[1..], id);
      var rest := RemoveId(history[1..], id);
      assert history == [history[0]] + history[1..];
      if history[0].id != id {
        assert ([history[0]] + rest)[1..] == rest;
      } else {
        SubsequenceOfTail(rest, history);
      }
    }
  }

  lemma {:induction false} SubsequenceOfTail<T>(sub: seq<T>, s: seq<T>)
    requires |s| > 0 && IsSubsequence(sub, s[1..])
    ensures IsSubsequence(sub, s)
    decreases |s|, 0
  {
    if |sub| > 0 && sub[0] == s[0] {
      SubsequenceWeaken(sub, s[1..]);
    }
  }

  /** Dropping the head of `sub` keeps it a subsequence. */
  lemma {:induction false} SubsequenceWeaken<T>(sub: seq<T>, s: seq<T>)
    requires |sub| > 0 && IsSubsequence(sub, s)
    ensures IsSubsequence(sub[1..], s)
    decreases |s|, 1
  {
    if sub[0] != s[0] {
      SubsequenceWeaken(sub, s[1..]);
      SubsequenceOfTail(sub[1..], s);
    } else {
      SubsequenceOfTail(sub[1..], s);
    }
  }

  // ---------------------------------------------------------------- reducer

  function ApplyPatch(s: AppState, p: StatePatch): AppState {
    AppState(
      p.theme.GetOr(s.theme),
      p.activeType.GetOr(s.activeType),
      p.activeStyle.GetOr(s.activeStyle),
      p.prompt.GetOr(s.prompt),
      p.keywords.GetOr(s.keywords),
      p.imageKeywords.GetOr(s.imageKeywords),
      p.loading.GetOr(s.loading),
      p.result.GetOr(s.result),
      p.history.GetOr(s.history),
      p.collections.GetOr(s.collections))
  }

  /** `appReducer(state, action)` */
  function Reduce(s: AppState, a: Action): AppState {
    match a
    case SetTheme(t) => s.(theme := t)
    case SetType(k) => s.(activeType := k, result := None, prompt := "", keywords := map[], imageKeywords := map[])
    case SetStyle(st) => s.(activeStyle := st)
    case SetPrompt(p) => s.(prompt := p)
    case SetKeywords(kw) => s.(keywords := Keywords.Merge(s.keywords, kw))
    case SetImageKeywords(kw) => s.(imageKeywords := Keywords.Merge(s.imageKeywords, kw))
    case SetLoading(b) => s.(loading := b)
    case SetResult(r) => s.(result := r)
    case AddHistory(item) => s.(history := Prepend(item, s.history))
    case DeleteHistory(id) => s.(history := RemoveId(s.history, id))
    case SetCollections(c) => s.(collections := c)
    case LoadStorage(p) => ApplyPatch(s, p)
  }

  /** Dispatching a sequence of actions in order. */
  function ReduceAll(s: AppState, actions: seq<Action>): AppState
    decreases |actions|
  {
    if |actions| == 0 then s else ReduceAll(Reduce(s, actions[0]), actions[1..])
  }

  lemma {:induction false} ReduceAllAppend(s: AppState, xs: seq<Action>, ys: seq<Action>)
    ensures ReduceAll(s, xs + ys) == ReduceAll(ReduceAll(s, xs), ys)
    decreases |xs|
  {
    if |xs| > 0 {
      assert (xs + ys)[0] == xs[0];
      assert (xs + ys)[1..] == xs[1..] + ys;
      ReduceAllAppend(Reduce(s, xs[0]), xs[1..], ys);
    } else {
      assert xs + ys == ys;
    }
  }

  /** ADD_HISTORY: the new item leads, at most ten remain, and the rest is a prefix of the old history. */
  lemma AddHistoryEffect(s: AppState, item: HistoryItem)
    ensures var r := Reduce(s, AddHistory(item));
      && r.history[0] == item
      && |r.history| <= Bound
      && r.history[1..] <= s.history
      && (|s.history| < Bound ==> r.history == [item] + s.history)
      && SameExcept(s, r, {HistoryField})
  {
    var r := Reduce(s, AddHistory(item));
    if |s.history| < Bound {
      assert r.history[1..] == s.history;
    }
  }

  /** DELETE_HISTORY: every entry with the id goes, the others stay in order, and an absent id changes nothing. */
  lemma DeleteHistoryEffect(s: AppState, id: string)
    ensures var r := Reduce(s, DeleteHistory(id));
      && (forall x :: x in r.history <==> x in s.history && x.id != id)
      && IsSubsequence(r.history, s.history)
      && SameExcept(s, r, {HistoryField})
    ensures (forall x :: x in s.history ==> x.id != id) ==> Reduce(s, DeleteHistory(id)) == s
  {
    RemoveIdSpec(s.history, id);
  }

  /** SET_TYPE: switching kind clears the working inputs and the shown result, and touches nothing else. */
  lemma SetTypeEffect(s: AppState, k: CreationType)
    ensures var r := Reduce(s, SetType(k));
      && r.activeType == k && r.result.None? && r.prompt == ""
      && (forall f :: Lookup(r.keywords, f).None?)
      && (forall f :: Lookup(r.imageKeywords, f).None?)
      && !AnySelected(r.keywords) && !AnySelected(r.imageKeywords)
      && SameExcept(s, r, {TypeField, ResultField, PromptField, KeywordsField, ImageKeywordsField})
  {
  }

  /** SET_KEYWORDS / SET_IMAGE_KEYWORDS: facets in the payload take its value, all others keep theirs. */
  lemma SetKeywordsEffect(s: AppState, kw: KeywordMap<Facet>, ikw: KeywordMap<ImageFacet>)
    ensures var r := Reduce(s, SetKeywords(kw));
      && (forall f :: f in kw ==> Lookup(r.keywords, f) == kw[f])
      && (forall f :: f !in kw ==> Lookup(r.keywords, f) == Lookup(s.keywords, f))
      && SameExcept(s, r, {KeywordsField})
    ensures var r := Reduce(s, SetImageKeywords(ikw));
      && (forall f :: f in ikw ==> Lookup(r.imageKeywords, f) == ikw[f])
      && (forall f :: f !in ikw ==> Lookup(r.imageKeywords, f) == Lookup(s.imageKeywords, f))
      && SameExcept(s, r, {ImageKeywordsField})
  {
  }

  /** The plain setters each replace exactly one field. */
  lemma SetterEffects(s: AppState, t: Theme, st: Style, p: string, b: bool, res: Option<Shown>, c: seq<CollectionItem>)
    ensures Reduce(s, SetTheme(t)).theme == t && SameExcept(s, Reduce(s, SetTheme(t)), {ThemeField})
    ensures Reduce(s, SetStyle(st)).activeStyle == st && SameExcept(s, Reduce(s, SetStyle(st)), {StyleField})
    ensures Reduce(s, SetPrompt(p)).prompt == p && SameExcept(s, Reduce(s, SetPrompt(p)), {PromptField})
    ensures Reduce(s, SetLoading(b)).loading == b && SameExcept(s, Reduce(s, SetLoading(b)), {LoadingField})
    ensures Reduce(s, SetResult(res)).result == res && SameExcept(s, Reduce(s, SetResult(res)), {ResultField})
    ensures Reduce(s, SetCollections(c)).collections == c
      && SameExcept(s, Reduce(s, SetCollections(c)), {CollectionsField})
  {
  }

  // ---------------------------------------------------------------- persistence

  /**
   A truthy list property as read back: a list of entries, or a drifted value
   (a number, a plain object) on which the first list method called on it
   (`slice` for history, `findIndex` for collections) throws the error
   carried here.
   */
  datatype StoredList<T> = Listed(items: seq<T>) | Drifted(thrown: Error)

  /** The persisted fields as read back from the blob; `None` is an absent or falsy property. */
  datatype StoredFields = StoredFields(
    history: Option<StoredList<HistoryItem>>,
    collections: Option<StoredList<CollectionItem>>,
    theme: Option<Theme>,
    activeStyle: Option<Style>,
    activeType: Option<CreationType>,
    keywords: Option<KeywordMap<Facet>>,
    imageKeywords: Option<KeywordMap<ImageFacet>>)

  /** The outcome of `JSON.parse` on the blob: a syntax error, the value `null`, or an object. */
  datatype Parsed = Malformed | NullValue | Value(fields: StoredFields)

  /** The blob is read only when it is present and non-empty (`if (saved)`). */
  predicate HasBlob(saved: Option<string>) {
    saved.Some? && saved.value != ""
  }

  /** `.slice(0, 10)` */
  function Truncate<T>(s: seq<T>): (r: seq<T>)
    ensures |r| <= Bound && r <= s
    ensures |s| <= Bound ==> r == s
  {
    if |s| > Bound then s[..Bound] else s
  }

  /** `parsed.collections || []` as the state can hold it: a drifted value is read as `[]`. */
  function LoadedCollections(c: Option<StoredList<CollectionItem>>): (r: seq<CollectionItem>)
    ensures c.Some? && c.value.Listed? ==> r == c.value.items
    ensures c.None? || c.value.Drifted? ==> r == []
  {
    match c
    case Some(Listed(cs)) => cs
    case _ => []
  }

  /** `(parsed.history || [])` when it is a list: a missing or falsy history is `[]`. */
  function StoredHistory(h: Option<StoredList<HistoryItem>>): (r: seq<HistoryItem>)
    ensures h.Some? && h.value.Listed? ==> r == h.value.items
    ensures h.None? ==> r == []
  {
    match h
    case Some(Listed(hs)) => hs
    case _ => []
  }

  /** A drifted history makes `.slice(0, 10)` throw before LOAD_STORAGE is dispatched. */
  predicate HistoryDrifted(f: StoredFields) {
    f.history.Some? && f.history.value.Drifted?
  }

  /** The LOAD_STORAGE payload built from a parsed object, with per-field defaults. */
  function HydrationPatch(f: StoredFields): StatePatch {
    StatePatch(
      Some(f.theme.GetOr(Light)),
      Some(f.activeType.GetOr(Writing)),
      Some(f.activeStyle.GetOr(Ancient)),
      None,
      Some(f.keywords.GetOr(map[])),
      Some(f.imageKeywords.GetOr(map[])),
      None,
      None,
      Some(Truncate(StoredHistory(f.history))),
      Some(LoadedCollections(f.collections)))
  }

  /**
   The startup effect: with a blob that parses to an object whose history is
   not drifted, LOAD_STORAGE is dispatched on the initial state; otherwise (no
   blob, a parse error, `null`, whose property access throws, or a drifted
   history, on which `.slice` throws) the catch keeps the initial state.
   */
  function Hydrate(saved: Option<string>, parse: string -> Parsed): AppState {
    if !HasBlob(saved) then InitialState
    else match parse(saved.value)
      case Value(f) => if HistoryDrifted(f) then InitialState else Reduce(InitialState, LoadStorage(HydrationPatch(f)))
      case _ => InitialState
  }

  /** Nothing is loaded without a blob, on a parse error, on `null`, or when the history is drifted, whatever the other fields hold. */
  lemma HydrateFallback(saved: Option<string>, parse: string -> Parsed)
    requires !HasBlob(saved) || !parse(saved.value).Value? || HistoryDrifted(parse(saved.value).fields)
    ensures Hydrate(saved, parse) == InitialState
  {
  }

  /** Hydration: history is cut to ten, collections are not, falsy fields take defaults, the transient fields stay initial. */
  lemma HydrateFields(saved: Option<string>, parse: string -> Parsed)
    requires HasBlob(saved) && parse(saved.value).Value? && !HistoryDrifted(parse(saved.value).fields)
    ensures var f := parse(saved.value).fields;
      var r := Hydrate(saved, parse);
      && r.history == Truncate(StoredHistory(f.history)) && |r.history| <= Bound
      && r.collections == LoadedCollections(f.collections)
      && r.theme == f.theme.GetOr(Light)
      && r.activeStyle == f.activeStyle.GetOr(Ancient)
      && r.activeType == f.activeType.GetOr(Writing)
      && r.keywords == f.keywords.GetOr(map[])
      && r.imageKeywords == f.imageKeywords.GetOr(map[])
      && SameExcept(InitialState, r,
           {HistoryField, CollectionsField, ThemeField, StyleField, TypeField, KeywordsField, ImageKeywordsField})
  {
  }

  /** JSON.stringify omits properties whose value is undefined. */
  function Compact<F>(m: KeywordMap<F>): (r: KeywordMap<F>)
    ensures forall f :: f in r ==> r[f].Some?
  {
    map f | f in m && m[f].Some? :: m[f]
  }

  lemma CompactLookup<F>(m: KeywordMap<F>)
    ensures forall f :: Lookup(Compact(m), f) == Lookup(m, f)
    ensures AnySelected(Compact(m)) <==> AnySelected(m)
  {
    forall f ensures Lookup(Compact(m), f) == Lookup(m, f) {
    }
    if AnySelected(m) {
      var f :| f in m && m[f].Some?;
      assert f in Compact(m);
    }
  }

  function CompactOption<F>(m: Option<KeywordMap<F>>): Option<KeywordMap<F>> {
    match m
    case Some(k) => Some(Compact(k))
    case None => None
  }

  /** A history item as it reads back from JSON. */
  function CompactItem(h: HistoryItem): HistoryItem {
    h.(keywords := CompactOption(h.keywords), imageKeywords := CompactOption(h.imageKeywords))
  }

  function CompactItems(hs: seq<HistoryItem>): (r: seq<HistoryItem>)
    ensures |r| == |hs| && forall i :: 0 <= i < |hs| ==> r[i] == CompactItem(hs[i])
  {
    seq(|hs|, i requires 0 <= i < |hs| => CompactItem(hs[i]))
  }

  function CompactCollections(cs: seq<CollectionItem>): (r: seq<CollectionItem>)
    ensures |r| == |cs| && forall i :: 0 <= i < |cs| ==> r[i] == cs[i].(item := CompactItem(cs[i].item))
  {
    seq(|cs|, i requires 0 <= i < |cs| => cs[i].(item := CompactItem(cs[i].item)))
  }

  /**
   The sync effect's snapshot, as the next read of the blob parses it: the
   seven persisted fields, with undefined keyword entries dropped.
   */
  function Snapshot(s: AppState): StoredFields {
    StoredFields(
      Some(Listed(CompactItems(s.history))),
      Some(Listed(CompactCollections(s.collections))),
      Some(s.theme),
      Some(s.activeStyle),
      Some(s.activeType),
      Some(Compact(s.keywords)),
      Some(Compact(s.imageKeywords)))
  }

  /** The snapshot never depends on the prompt, the loading flag or the shown result. */
  lemma SnapshotIgnoresTransient(s: AppState, t: AppState)
    requires SameExcept(s, t, {PromptField, LoadingField, ResultField})
    ensures Snapshot(s) == Snapshot(t)
  {
    assert Agree(s, t, HistoryField) && Agree(s, t, CollectionsField) && Agree(s, t, ThemeField);
    assert Agree(s, t, StyleField) && Agree(s, t, TypeField);
    assert Agree(s, t, KeywordsField) && Agree(s, t, ImageKeywordsField);
  }

  /**
   Reloading a snapshot of a state whose history fits the bound restores the
   persisted fields (keyword facets read back the same) and resets the rest.
   */
  lemma SnapshotRoundTrip(s: AppState, saved: string, parse: string -> Parsed)
    requires |s.history| <= Bound
    requires saved != "" && parse(saved) == Value(Snapshot(s))
    ensures var r := Hydrate(Some(saved), parse);
      && r.history == CompactItems(s.history)
      && r.collections == CompactCollections(s.collections)
      && r.theme == s.theme && r.activeStyle == s.activeStyle && r.activeType == s.activeType
      && (forall f :: Lookup(r.keywords, f) == Lookup(s.keywords, f))
      && (forall f :: Lookup(r.imageKeywords, f) == Lookup(s.imageKeywords, f))
      && r.prompt == "" && !r.loading && r.result.None?
  {
    CompactLookup(s.keywords);
    CompactLookup(s.imageKeywords);
  }

  // ---------------------------------------------------------------- history bound

  lemma {:induction false} RemoveIdShrinks(history: seq<HistoryItem>, id: string)
    ensures |RemoveId(history, id)| <= |history|
    decreases |history|
  {
    if |history| > 0 {
      RemoveIdShrinks(history[1..], id);
    }
  }

  /** A LOAD_STORAGE whose history, if it carries one, fits the bound; every other action qualifies. */
  predicate BoundedLoad(a: Action) {
    a.LoadStorage? && a.patch.history.Some? ==> |a.patch.history.value| <= Bound
  }

  /** Each action keeps a history of at most ten entries within ten. */
  lemma ReduceKeepsBound(s: AppState, a: Action)
    requires |s.history| <= Bound && BoundedLoad(a)
    ensures |Reduce(s, a).history| <= Bound
  {
    if a.DeleteHistory? {
      RemoveIdShrinks(s.history, a.id);
    }
  }

  lemma {:induction false} ReduceAllKeepsBound(s: AppState, actions: seq<Action>)
    requires |s.history| <= Bound
    requires forall i :: 0 <= i < |actions| ==> BoundedLoad(actions[i])
    ensures |ReduceAll(s, actions).history| <= Bound
    decreases |actions|
  {
    if |actions| > 0 {
      ReduceKeepsBound(s, actions[0]);
      ReduceAllKeepsBound(Reduce(s, actions[0]), actions[1..]);
    }
  }

  /**
   From startup on, history never holds more than ten entries: hydration cuts
   it to ten and no action the app dispatches afterwards grows it past that.
   So every reachable state meets the bound the snapshot round trip needs.
   */
  lemma ReachableHistoryBounded(saved: Option<string>, parse: string -> Parsed, actions: seq<Action>)
    requires forall i :: 0 <= i < |actions| ==> BoundedLoad(actions[i])
    ensures |ReduceAll(Hydrate(saved, parse), actions).history| <= Bound
  {
    ReduceAllKeepsBound(Hydrate(saved, parse), actions);
  }

  /** The LOAD_STORAGE that hydration dispatches always fits the bound. */
  lemma HydrationLoadBounded(f: StoredFields)
    ensures BoundedLoad(LoadStorage(HydrationPatch(f)))
  {
  }
}

=== FILE: text.dfy ===
/**
 Decimal rendering of numbers as JavaScript's `Number.prototype.toString`
 produces it for non-negative integers, `padStart` with '0', and the inverse
 parser used to state round trips.
 */
module Text {

  predicate IsDigit(c: char) {
    '0' <= c <= '9'
  }

  predicate AllDigits(s: string) {
    forall i :: 0 <= i < |s| ==> IsDigit(s[i])
  }

  function DigitChar(d: nat): (c: char)
    requires d < 10
    ensures IsDigit(c)
  {
    (48 + d) as char
  }

  function DigitValue(c: char): (d: nat)
    requires IsDigit(c)
    ensures d < 10
  {
    (c as int - 48) as nat
  }

  /** `n.toString()` for a non-negative integer: no leading zeros, "0" for zero. */
  function Decimal(n: nat): (s: string)
    ensures |s| >= 1 && AllDigits(s)
    ensures |s| > 1 ==> s[0] != '0'
    ensures n < 10 <==> |s| == 1
    decreases n
  {
    if n < 10 then [DigitChar(n)] else Decimal(n / 10) + [DigitChar(n % 10)]
  }

  /** Reads a string of digits back as a number. */
  function ParseDecimal(s: string): (n: nat)
    requires AllDigits(s)
    decreases |s|
  {
    if |s| == 0 then 0 else 10 * ParseDecimal(s[..|s| - 1]) + DigitValue(s[|s| - 1])
  }

  lemma {:induction false} ParseDecimalOfDecimal(n: nat)
    ensures ParseDecimal(Decimal(n)) == n
    decreases n
  {
    var s := Decimal(n);
    if n >= 10 {
      ParseDecimalOfDecimal(n / 10);
      assert s[..|s| - 1] == Decimal(n / 10);
    }
  }

  /** `s.padStart(2, '0')`: at least two characters, zeros on the left. */
  function PadStart2(s: string): (r: string)
    ensures |s| < 2 ==> |r| == 2 && r[2 - |s|..] == s
    ensures |s| >= 2 ==> r == s
    ensures forall i :: 0 <= i < |r| - |s| ==> r[i] == '0'
  {
    if |s| >= 2 then s else seq(2 - |s|, _ => '0') + s
  }

  /** A number below 100 rendered as exactly two digits. */
  function TwoDigits(n: nat): (r: string)
    requires n < 100
    ensures |r| == 2 && AllDigits(r)
    ensures ParseDecimal(r) == n
  {
    var d := Decimal(n);
    ParseDecimalOfDecimal(n);
    if n < 10 then
      assert PadStart2(d) == ['0'] + d;
      PadStart2(d)
    else
      assert |d| == 2 by {
        assert n / 10 < 10;
      }
      PadStart2(d)
  }
}

=== FILE: types.dfy ===
/**
 The shared data model of the application: creation kinds, styles, themes,
 keyword facets, generated content, history and collection entries, and the
 uniform response envelope every operation returns.
 */
module Types {

  /** Conventional optional value; `None` plays the part of JavaScript's `undefined`. */
  datatype Option<+T> = None | Some(value: T) {
    function GetOr(default: T): T {
      match this
      case Some(v) => v
      case None => default
    }
  }

  /** Outcome of an operation that may throw; `Failure` carries the thrown error. */
  datatype Result<+T, +E> = Success(value: T) | Failure(error: E)

  /** A thrown JavaScript error. The empty message stands for a missing or empty `message` (both falsy). */
  datatype Error = Error(message: string)

  /** `a || b` on an optional string: an absent or empty string falls back to `b`. */
  function OrElse(s: Option<string>, fallback: string): (r: string)
    ensures s.Some? && s.value != "" ==> r == s.value
    ensures s.None? || s.value == "" ==> r == fallback
  {
    if s.Some? && s.value != "" then s.value else fallback
  }

  /** `error.message || fallback` */
  function MessageOr(e: Error, fallback: string): (r: string)
    ensures e.message != "" ==> r == e.message
    ensures e.message == "" ==> r == fallback
  {
    if e.message != "" then e.message else fallback
  }

  datatype CreationType = Writing | Drawing | Inspiration

  datatype Style = Ancient | Modern | Fantasy | Cyberpunk | Campus

  datatype Theme = Light | Dark

  /** The six facets of the writing keyword selector. */
  datatype Facet = Seme | Uke | Era | Relationship | Plot | Length

  /** The eight facets of the drawing keyword selector. */
  datatype ImageFacet =
    SemeFeature | UkeFeature | Composition | Lighting | ColorScheme | Atmosphere | Scene | Elements

  /**
   A keyword object. A facet absent from the map and a facet mapped to `None`
   both read as undefined; they differ only in whether the property exists.
   */
  type KeywordMap<F> = map<F, Option<string>>

  /** Reading `keywords[f]`. */
  function Lookup<F>(m: KeywordMap<F>, f: F): Option<string> {
    if f in m then m[f] else None
  }

  /** No element occurs twice. */
  predicate Distinct<T(==)>(s: seq<T>) {
    forall i, j :: 0 <= i < j < |s| ==> s[i] != s[j]
  }

  /** `Object.values(m).some(v => v !== undefined)` */
  predicate AnySelected<F>(m: KeywordMap<F>) {
    exists f :: f in m && m[f].Some?
  }

  /** Generated content; every field is optional. */
  datatype Content = Content(
    title: Option<string>,
    body: Option<string>,
    pairings: Option<string>,
    traits: Option<seq<string>>,
    imageUrl: Option<string>,
    description: Option<string>,
    plotHooks: Option<seq<string>>)

  /** The content of an image generation: exactly an image URL and a description. */
  function ImageContent(imageUrl: string, description: string): (c: Content)
    ensures c.imageUrl == Some(imageUrl) && c.description == Some(description)
    ensures c.title.None? && c.body.None? && c.pairings.None? && c.traits.None? && c.plotHooks.None?
  {
    Content(None, None, None, None, Some(imageUrl), Some(description), None)
  }

  datatype HistoryItem = HistoryItem(
    id: string,
    kind: CreationType,
    style: Option<Style>,
    prompt: string,
    keywords: Option<KeywordMap<Facet>>,
    imageKeywords: Option<KeywordMap<ImageFacet>>,
    content: Content,
    timestamp: int)

  /** A favourite: a copy of a history item plus the time it was collected. */
  datatype CollectionItem = CollectionItem(item: HistoryItem, collectedAt: int)

  /** The uniform `{ success, data, error, status }` response. */
  datatype Envelope<+T> = Envelope(success: bool, data: Option<T>, error: Option<string>, status: int)

  /**
   `createResponse(data, success = true, error?, status = 200)`; an omitted
   (undefined) argument is `None` and takes its default.
   */
  function CreateResponse<T>(data: Option<T>, success: Option<bool>, error: Option<string>, status: Option<int>): (r: Envelope<T>)
    ensures r.data == data && r.error == error
    ensures r.success == success.GetOr(true) && r.status == status.GetOr(200)
  {
    Envelope(success.GetOr(true), data, error, status.GetOr(200))
  }

  /** `createResponse(data)`: a success envelope. */
  function Respond<T>(data: T): (r: Envelope<T>)
    ensures r.success && r.data == Some(data) && r.error.None? && r.status == 200
  {
    CreateResponse(Some(data), None, None, None)
  }

  /** `createResponse(null, false, message, status)`: a failure envelope. */
  function Fail<T>(message: string, status: int): (r: Envelope<T>)
    ensures !r.success && r.data.None? && r.error == Some(message) && r.status == status
  {
    CreateResponse(None, Some(false), Some(message), Some(status))
  }
}
